=== FILE: README.md ===
# ZestyFlow core in Dafny

A model of the pure logic of the ZestyFlow food-ordering site, with proofs of its properties. It covers four pieces:

- **Order lifecycle** (`Orders`, orders.dfy). This is the `Order` schema plus the three authenticated routes:
  - placing an order: validate and sanitise the raw item list, compute the total on the server, store a `placed` order;
  - listing the caller's orders, newest first;
  - the guarded `placed → cancelled` transition inside a two-minute window.

  The document store is a sequence of orders. The authenticated caller id and the clock (`now`, in milliseconds) are parameters.
- **Menu catalogue** (`Menu`, menu.dfy). This is the `MenuItem` schema with its casts and defaults. It covers listing the available items newest first, and creating an item after the required-field check. Listing is a pure function of the catalogue, so it cannot change it.
- **Cart add button** (`Cart`, cart.dfy). This is the pure part of the click handler:
  - reading the integer price after the currency marker in the card text;
  - the insert-or-increment merge into the stored cart, keyed by name.

  The handler `OnAdd` takes the currency marker as a parameter. `OnAddClickedAsWritten` searches for the marker exactly as the script spells it. `OnAddClicked` searches for the rupee sign, as intended (see Findings).
- **Path fixer** (`FixPaths`, fixpaths.dfy). This is `fixPaths`: five rewrite passes that prefix `/` to relative `href`/`src` values. A document is a sequence of `Text` and `Attr(kind, value)` segments, which stands in for the regular expressions.

Supporting modules:

- `Wrappers` holds `Option`, `Result`, and `MapResults`, which models `Array.prototype.map` with a callback that may throw.
- `Js` models raw JSON request values and the JavaScript coercions the handlers use:
  - truthiness;
  - property access, which throws on `null`/`undefined`;
  - `String.prototype.trim`, with the ECMAScript white-space set;
  - `Number()`, `parseInt` and `String()`.
- `Seqs` holds `FirstIndex`, the `findIndex` search that the cart merge and the order lookup share.
- `Recency` holds the shared query steps: a filter, and a stable newest-first sort on `createdAt`.

The code differs from a plain reading of its intent in two places, and the model follows the code:

- Cancelling calls `order.save()` on a schema with `timestamps: true`. So besides the status, the cancelled order's `updatedAt` becomes `now`. Every other field and every other order stays unchanged.
- `Order.create` validates the sanitised items. An item whose trimmed name is empty, or whose quantity `parseInt` cannot read (for example `true`), is refused by the store. That throws an error whose message lacks `Item`, so the route answers 500 (`ServerError`), not 400.

## Model

| member | source | states |
|---|---|---|
| Orders.ParseStatus | backend/models/Order.js:14-18 | only the five enum spellings parse, and each parses to the status spelt that way |
| Orders.StatusNameRoundTrip | backend/models/Order.js:14-18 | every status survives spelling and parsing back |
| Orders.TotalAppend | backend/routes/orders.js:44 | the reduce-sum over a concatenation is the sum of the parts' sums |
| Orders.TotalOfOne | backend/routes/orders.js:44 | the total of one item is its price times its quantity |
| Orders.Total | backend/routes/orders.js:44 | the `reduce` total of items with no negative price or quantity is never negative |
| Orders.AtLeastOne | backend/routes/orders.js:38 | `Math.max(1, q)`: NaN stays NaN; a number becomes the larger of 1 and q (at least both, and equal to one of them) |
| Orders.CheckItem | backend/routes/orders.js:22-39 | a rejected item raises a bad-item error carrying its own index, or a server error; every accepted numeric quantity is at least 1 |
| Orders.CheckItemAcceptance | backend/routes/orders.js:25-33 | an item passes if and only if it has a non-empty string name and a truthy, numeric price and quantity; a `null` item gives a server error |
| Orders.CheckItemFieldOrder | backend/routes/orders.js:25-33 | a rejection names the first bad field in the handler's order: a bad name gives `Name`; a good name with a bad price gives `Price`; a good name and price with a bad quantity gives `Quantity` |
| Orders.CheckItems | backend/routes/orders.js:22-40 | on success, one sanitised item per raw item, each equal to that item's check; on failure, the error of the first failing item in index order |
| Orders.ToItems | backend/models/Order.js:3-7 | the stored items keep the sanitised names, prices and quantities, and each has a name and a quantity ≥ 1 |
| Orders.Storable | backend/models/Order.js:3-7 | the store accepts sanitised items exactly when each has a quantity number and, with it, meets the item schema (a non-empty name, a quantity ≥ 1) |
| Orders.StoreRefusal | backend/routes/orders.js:35-52 | when every item passes the checks, the store refuses them exactly when some item's trimmed name is blank or `parseInt` finds no number in its quantity |
| Orders.Place | backend/routes/orders.js:15-61 | a missing body gives 500; a non-array or empty `items` gives `NoItems`; every failure stores nothing. Success appends exactly one `placed` order that the caller owns, whose items are the checked items in order, whose total is the sum of price × quantity and is echoed in the receipt, and whose timestamps are `now` |
| Orders.Record | backend/routes/orders.js:44-61 | creating an order from storable drafts appends a valid `placed` order owned by the caller, with the server-side total and `now` timestamps, and keeps the store well formed |
| Orders.PlaceAcceptsCheckedItems | backend/routes/orders.js:16-52 | when the list is non-empty, every item passes and the store accepts the result, placement succeeds and stores exactly these drafts |
| Orders.PlaceReadsOnlyItems | backend/routes/orders.js:15 | two bodies with the same `items` give the same placement, so a client-sent `total` has no effect |
| Orders.PlaceReportsFirstFailure | backend/routes/orders.js:22-72 | when item k is the first to fail its check, placement answers with item k's error and nothing is stored; the status is 400 for a bad item and 500 when the check itself threw |
| Orders.NullItemIsServerError | backend/routes/orders.js:22-72 | for `items: [null]`, reading `name` of `null` throws, and the route answers 500 (`ServerError`) and stores nothing |
| Orders.PlaceRefusedByStore | backend/routes/orders.js:35-72 | if every item passes the checks but one has a blank trimmed name or an unreadable quantity, the answer is 500 (`ServerError`), not a bad-item error, and nothing is stored |
| Orders.NumericItemAccepted | backend/routes/orders.js:28-39 | a named item with non-zero numeric price and quantity passes with the trimmed name, the same price (negative included), and quantity max(1, q) |
| Orders.ZeroRejected | backend/routes/orders.js:28-33 | price 0 is rejected as a bad price, and quantity 0 as a bad quantity, rather than clamped |
| Orders.SanitisedQuantity | backend/routes/orders.js:31-38 | for a number or a numeric non-blank string, the stored quantity is max(1, Number(q)) because `parseInt` agrees with `Number` there |
| Orders.ListMine | backend/routes/orders.js:80 | the listing holds exactly the caller's orders, with their multiplicities, newest first |
| Orders.ListMineExactlyOwned | backend/routes/orders.js:80 | an order is listed if and only if it is stored and owned by the caller |
| Orders.FindById | backend/routes/orders.js:91-92 | finds the first order with the id, or reports that none has it |
| Orders.FindByIdWellFormed | backend/routes/orders.js:91 | in a well-formed store, the order with id `id` is at position `id` |
| Orders.Cancel | backend/routes/orders.js:91-111 | the checks run in this order: missing gives 404, another owner gives 403, a status other than `placed` gives 400, and more than 120000 ms gives 400. It succeeds if and only if all four pass; the order then becomes `cancelled` (with `updatedAt := now`), no other order changes, and a failure changes nothing |
| Orders.CancelOnlyOnce | backend/routes/orders.js:98-109 | after a successful cancel, a second cancel at any time is refused as not cancellable, with status 400 |
| Orders.CancelWindowBoundary | backend/routes/orders.js:103-106 | cancelling exactly 120000 ms after creation succeeds; 120001 ms is refused as past the window, with status 400 |
| Orders.PlaceSingleItem | backend/routes/orders.js:44-61 | when the one item passes the checks, the order is stored with id equal to the store size and charged price × sanitised quantity |
| Orders.PizzaPlaced | backend/routes/orders.js:22-61 | 2 items at 299 are placed as order 0 with total 598 |
| Orders.PizzaScenario | backend/routes/orders.js:22-111 | 2 items at 299 cost 598; a cancel one minute later succeeds; a second cancel is refused |
| Menu.CastString | backend/models/MenuItem.js:4-8 | a string is stored as is, absent or null stores nothing, and arrays or objects are cast errors |
| Menu.CastNumber | backend/models/MenuItem.js:6 | a number is stored as is; absent, null and "" store nothing; arrays or objects are cast errors |
| Menu.CastBoolean | backend/models/MenuItem.js:9 | a boolean is stored as is, and absent or null stores nothing |
| Menu.ListAvailable | backend/routes/menu.js:8 | the listing holds exactly the available items, with their multiplicities, newest first |
| Menu.ListedIffAvailable | backend/routes/menu.js:8 | an item is listed if and only if it is in the catalogue and available |
| Menu.Create | backend/routes/menu.js:14-17 | it rejects with 400 exactly when the name is falsy or the price is null/undefined; failures store nothing. It succeeds exactly when that check passes and the schema accepts the body: every field casts, the name to a non-empty string and the price to a number ≥ 0. On success it appends one valid item (name, price ≥ 0) with `now` timestamps, the given name and price, category defaulting to "General", `available` defaulting to true, a supplied category, description or imageUrl string stored as given, and absent description and imageUrl stored as absent |
| Menu.CreateReadsOnlyItsFields | backend/routes/menu.js:14 | bodies that agree on the six destructured fields create the same item |
| Menu.WellTypedBodyCreated | backend/routes/menu.js:14-17 | a body with a non-empty string name, a number price ≥ 0, string or absent text fields and a boolean or absent `available` is created with that name and price |
| Menu.PriceZeroAcceptedNegativeRejected | backend/routes/menu.js:15-16 | price 0 passes the check and is stored; a negative price passes the check but the schema's `min: 0` refuses it |
| Menu.CreatedItemListing | backend/routes/menu.js:8-16 | an item created without `available` appears in the listing; one created with `available: false` never does |
| Cart.FirstMatch | cart.js:8 | finds the first position where the marker is followed by a digit, or reports that there is none |
| Cart.PriceAfter | cart.js:8-12 | there is no price if and only if the marker never precedes a digit; otherwise the price is the value of the digit run after the first such marker |
| Cart.CardPriceAsWritten | cart.js:8 | as written, a card text that lacks the character U+00E2 never yields a price, so a card whose only currency sign is a real `₹` never does |
| Cart.CardPrice | cart.js:8 | as intended, there is a price exactly when some `₹` in the card text is directly followed by a digit |
| Cart.RupeePriceNotFoundAsWritten | cart.js:8 | on the card text "₹299" the marker as written finds no price, while the rupee sign reads 299 |
| Cart.CardPriceReadsDigits | cart.js:7-12 | on `prefix ₹ digits suffix` the price is the whole digit run after the first rupee sign |
| Cart.FindByName | cart.js:18 | `findIndex`: the first entry with the name, or none if no entry has it |
| Cart.AddToCart | cart.js:16-23 | a missing cart is empty; a new name is appended with quantity 1; an existing name's first entry gains one unit and every other entry is unchanged |
| Cart.OnAdd | cart.js:7-23 | the handler throws, leaving the cart alone, exactly when no marker in the card text precedes a digit; otherwise the cart gains one unit of the item in total and for its name, every other name's count is unchanged, and unique names stay unique; the new cart is the merge of the item at the price read after the first marker, so a new name is appended at that price |
| Cart.RupeeCardClickedAsWritten | cart.js:7-23 | on a card showing "₹299" the handler as written fails and leaves the cart alone, while the intended one adds the item at 299 |
| Cart.OnAddClickedAsWritten | cart.js:7-23 | as written, clicking on a card whose text lacks U+00E2 always throws and leaves the cart alone |
| Cart.OnAddClicked | cart.js:7-23 | as intended, the click succeeds exactly when the card shows a price, and then merges one unit of the item at that price |
| Cart.AddCounts | cart.js:16-23 | one add gives one more unit in total and of the added name, no change for any other name, and keeps names unique |
| Cart.AddKeepsNamesUnique | cart.js:18-23 | if names were unique before an add, they are unique after it |
| Cart.AddCountsOneUnit | cart.js:13-22 | each add raises the total quantity by exactly 1 and the length by at most 1 |
| Cart.AddCountsPerName | cart.js:18-22 | an add gives one more unit of the added name and leaves every other name's count unchanged |
| FixPaths.ApplyPass | fix-paths.js:13-41 | a pass leaves text alone and prefixes `/` to exactly the attribute values its rule matches |
| FixPaths.Fires | fix-paths.js:13-41 | the five rules: no rule matches an empty value, and only the image rule rewrites `src` values, the other four only `href` |
| FixPaths.FiresOnlyOnUnprefixed | fix-paths.js:13-41 | every rule only matches values that do not start with `/` |
| FixPaths.NoPassFiresOnPrefixed | fix-paths.js:13-41 | a value starting with `/` is matched by no pass |
| FixPaths.Fix | fix-paths.js:9-44 | `fixPaths` leaves text unchanged, and each attribute value gains one `/` exactly when some rule matches the original value, never more than one |
| FixPaths.FixIdempotent | fix-paths.js:13-41 | fixing an already fixed document changes nothing |
| FixPaths.FixNestedStylesheet | fix-paths.js:13-28 | `pages/a.css` becomes `/pages/a.css`, prefixed once although two rules match it |
| Js.Trim | backend/routes/orders.js:36 | the trimmed name is empty exactly when the name is all white space, and otherwise it neither begins nor ends with white space; it is never longer than the name |
| Js.TrimIsMiddle | backend/routes/orders.js:36 | the trimmed name is, character for character, the original text that starts right after its leading white space; everything before it and everything after it is white space |
| Js.TrimKeepsMiddle | backend/routes/orders.js:36 | whenever the text is white space before position a and from position b on, with non-white-space characters at a and b - 1, the trimmed text is exactly the slice from a to b |
| Js.Truthy | backend/routes/orders.js:25-31 | `undefined` and `null` are falsy; a number or boolean is truthy exactly when `Number` of it is not 0; arrays and objects are truthy |
| Js.ToNumber | backend/routes/orders.js:28-37 | `Number(v)`: a number is itself, `null` and blank strings give 0, booleans give 1 or 0, and `undefined`, arrays and objects give NaN |
| Js.ParseInt | backend/routes/orders.js:38 | `parseInt(v, 10)`: a number is itself, a plain digit string is its value, and blank strings and non-string values other than numbers give NaN |
| Js.ParseIntAgreesWithNumber | backend/routes/orders.js:31-38 | on a non-blank string that `Number` reads, `parseInt` gives the same value |
| Js.IntToDecimalRoundTrip | backend/models/MenuItem.js:4 | the decimal spelling of an integer reads back as that integer |
| Recency.Filter | backend/routes/orders.js:80 | keeps exactly the selected records, with their multiplicities |
| Recency.Insert | backend/routes/orders.js:80 | inserting into a newest-first list keeps it newest first and adds exactly one record |
| Recency.SortNewestFirst | backend/routes/menu.js:8 | the result is newest first and a permutation of the input |
| Seqs.FirstIndex | cart.js:18 | `findIndex`: the first position whose element satisfies the test, or none exactly when no element does |
| Wrappers.MapResults | backend/routes/orders.js:22-40 | a map whose callback may throw: either every element maps, in order, or the error is the first failing element's |
| Wrappers.MapResultsAllPass | backend/routes/orders.js:22-40 | if every element maps to its given result, the map succeeds with exactly those results |
| Wrappers.MapResultsFirstFailure | backend/routes/orders.js:22-40 | if element k is the first to fail, the map fails with element k's error |

## Left out

- Persistence:
  - Mongoose calls (`create`, `find`, `findById`, `save`) become operations on an in-memory sequence;
  - `_id`s are the positions in that sequence;
  - a cancel id that does not cast to an ObjectId (a 500 in the route) is not modelled, because ids are natural numbers;
  - concurrent cancellations are a database concern and are not modelled.
- Authentication: `requireAuth`, the auth routes and the `User` model. The caller id is a parameter. Owner ids compare by their string form in the route; here they compare by equality.
- The server wiring (backend/server.js), the seed script, all logging and the exact message texts. Errors are modelled as error kinds with their HTTP statuses.
- The clock: `Date.now()` and the `timestamps` option become the parameter `now`.
- Floating point:
  - prices and quantities are integers;
  - `Number()` reads only an optional sign and decimal digits, and blank strings give 0;
  - decimals, exponents, hexadecimal, `Infinity`, and arrays, which JavaScript can convert, are treated as NaN;
  - `parseInt` is unbounded, so very long digit runs do not lose precision.
- Mongoose casts are approximated:
  - String paths accept strings, numbers and booleans;
  - Number paths follow the `Number()` model above;
  - Boolean paths accept the documented spellings.
  - A `null` `available` is stored as absent.
- The menu router's unhandled rejection (it has no `try`/`catch`) is the `Thrown` error kind. No response status is claimed for it.
- Regular-expression matching in `fixPaths` is abstracted: a document is already split into text and quoted `href`/`src` values. The file walk, reads and writes around `fixPaths` (fix-paths.js:46-96) are I/O.
- In cart.js, the DOM queries, `JSON.parse`/`JSON.stringify` of `localStorage`, and the `alert` are I/O. The stored cart is a parameter and the new cart is the result.
- Cart.CardPriceReadsDigits: it requires that no rupee sign occurs before the price, instead of describing the first match in general. The general case is stated by Cart.PriceAfter.
- Orders.PizzaScenario: any item name that is not blank stands in for "Pizza", so the walk-through holds for every such name.

## Findings

| source | as written | input that shows it | evidently intended | confidence | as-written member | corrected member |
|---|---|---|---|---|---|---|
| cart.js:8 | the price pattern searches for `â‚¹`, the UTF-8 bytes of the rupee sign read as Windows-1252, so text showing a real `₹` never matches; `match` returns `null` and indexing it throws before the cart is touched | a card whose price text is `₹299` | search for the rupee sign `₹` and read 299 | not executed | Cart.CardPriceAsWritten, Cart.OnAddClickedAsWritten, Cart.RupeePriceNotFoundAsWritten, Cart.RupeeCardClickedAsWritten | Cart.CardPrice, Cart.OnAddClicked, Cart.CardPriceReadsDigits |

=== FILE: cart.dfy ===
/** The pure part of the menu page's "add" button handler (cart.js): reading the
    price off a menu card and merging the item into the stored cart, a list keyed
    by item name. Browser storage is the `stored` parameter and the result. */
module Cart {
  import opened Wrappers
  import opened Js
  import Seqs

  datatype CartEntry = CartEntry(name: string, price: int, quantity: int)

  /** The currency marker the handler's regular expression searches for, exactly as
      the script spells it: the three characters U+00E2 U+201A U+00B9, which is the
      UTF-8 encoding of the rupee sign read back as Windows-1252. */
  const MarkerAsWritten: string := "\U{E2}\U{201A}\U{B9}"

  /** The rupee sign U+20B9 that menu cards display before a price. */
  const RupeeSign: string := "\U{20B9}"

  /** Position `i` of `text` starts `marker` followed by at least one digit. */
  predicate MarkerAt(marker: string, text: string, i: int) {
    0 <= i && i + |marker| < |text| && text[i..i + |marker|] == marker && IsDigit(text[i + |marker|])
  }

  /** Where the regular expression `<marker>(\d+)` first matches. */
  function FirstMatch(marker: string, text: string, from: nat): (r: Option<nat>)
    requires from <= |text|
    ensures r.Some? ==> from <= r.value && MarkerAt(marker, text, r.value)
    ensures r.Some? ==> forall j {:trigger MarkerAt(marker, text, j)} :: from <= j < r.value ==> !MarkerAt(marker, text, j)
    ensures r.None? ==> forall j {:trigger MarkerAt(marker, text, j)} :: from <= j ==> !MarkerAt(marker, text, j)
    decreases |text| - from
  {
    if from + |marker| >= |text| then None
    else if MarkerAt(marker, text, from) then Some(from)
    else FirstMatch(marker, text, from + 1)
  }

  /** `parseInt(text.match(/<marker>(\d+)/)[1])`: the digit run after the first marker
      that a digit follows; `None` where `match` returns `null` and indexing it throws. */
  function PriceAfter(marker: string, text: string): (r: Option<nat>)
    ensures r.None? <==> forall j {:trigger MarkerAt(marker, text, j)} :: !MarkerAt(marker, text, j)
    ensures r.Some? ==>
              exists i {:trigger MarkerAt(marker, text, i)} :: MarkerAt(marker, text, i)
                          && (forall j {:trigger MarkerAt(marker, text, j)} :: 0 <= j < i ==> !MarkerAt(marker, text, j))
                          && r.value == DigitRun(text, i + |marker|)
  {
    match FirstMatch(marker, text, 0)
    case None => NoMatchMeansNoMarker(marker, text); None
    case Some(i) => FirstMatchIsFirst(marker, text, i); Some(DigitRun(text, i + |marker|))
  }

  /** `parseInt` of the digit run starting at position `k`. */
  function DigitRun(text: string, k: nat): nat
    requires k <= |text|
  {
    DigitsValue(LeadingDigits(text[k..]))
  }

  lemma NoMatchMeansNoMarker(marker: string, text: string)
    requires FirstMatch(marker, text, 0).None?
    ensures forall j {:trigger MarkerAt(marker, text, j)} :: !MarkerAt(marker, text, j)
  {
  }

  lemma FirstMatchIsFirst(marker: string, text: string, i: nat)
    requires FirstMatch(marker, text, 0) == Some(i)
    ensures MarkerAt(marker, text, i) && i + |marker| <= |text|
    ensures forall j {:trigger MarkerAt(marker, text, j)} :: 0 <= j < i ==> !MarkerAt(marker, text, j)
  {
  }

  /** The price extraction as the script writes it, with the mis-encoded marker: a
      card text without the character U+00E2 never yields a price. */
  function CardPriceAsWritten(text: string): (r: Option<nat>)
    ensures (forall k :: 0 <= k < |text| ==> text[k] != MarkerAsWritten[0]) ==> r.None?
  {
    NoLeadCharNoMarker(MarkerAsWritten, text);
    PriceAfter(MarkerAsWritten, text)
  }

  /** The price extraction as intended: there is a price exactly when some rupee sign
      is directly followed by a digit. */
  function CardPrice(text: string): (r: Option<nat>)
    ensures r.None? <==> forall i :: 0 <= i < |text| - 1 ==> !(text[i] == '\U{20B9}' && IsDigit(text[i + 1]))
  {
    RupeeMarkerAt(text);
    PriceAfter(RupeeSign, text)
  }

  /** A marker cannot occur in a text that lacks its first character. */
  lemma NoLeadCharNoMarker(marker: string, text: string)
    requires marker != []
    ensures (forall k :: 0 <= k < |text| ==> text[k] != marker[0]) ==>
              forall j {:trigger MarkerAt(marker, text, j)} :: !MarkerAt(marker, text, j)
  {
    if forall k :: 0 <= k < |text| ==> text[k] != marker[0] {
      forall j ensures !MarkerAt(marker, text, j) {
        if 0 <= j && j + |marker| < |text| {
          assert text[j..j + |marker|][0] == text[j];
        }
      }
    }
  }

  /** The one-character rupee marker occurs nowhere exactly when no rupee sign in
      `text` is directly followed by a digit. */
  lemma RupeeMarkerAt(text: string)
    ensures (forall j {:trigger MarkerAt(RupeeSign, text, j)} :: !MarkerAt(RupeeSign, text, j)) <==>
            (forall i :: 0 <= i < |text| - 1 ==> !(text[i] == '\U{20B9}' && IsDigit(text[i + 1])))
  {
    forall i | 0 <= i < |text| - 1 && text[i] == '\U{20B9}' && IsDigit(text[i + 1])
      ensures MarkerAt(RupeeSign, text, i)
    {
      assert text[i..i + 1] == RupeeSign;
    }
    forall j | MarkerAt(RupeeSign, text, j)
      ensures 0 <= j < |text| - 1 && text[j] == '\U{20B9}' && IsDigit(text[j + 1])
    {
      assert text[j..j + 1][0] == text[j];
    }
  }

  /** A card showing "₹299" has no price for the script as written, so the handler
      throws before touching the cart; the intended marker reads 299. */
  lemma RupeePriceNotFoundAsWritten()
    ensures CardPriceAsWritten("\U{20B9}299") == None
    ensures CardPrice("\U{20B9}299") == Some(299)
  {
    var text := "\U{20B9}299";
    forall j ensures !MarkerAt(MarkerAsWritten, text, j) {
      if 0 <= j && j + 3 < |text| {
        assert text[j..j + 3][0] == text[0] != MarkerAsWritten[0];
      }
    }
    assert MarkerAt(RupeeSign, text, 0);
    assert text[1..] == "299";
    assert LeadingDigits("299") == "299" by {
      assert LeadingDigits("9") == "9";
      assert "299"[1..] == "99" && "99"[1..] == "9" && "9"[1..] == "";
    }
    assert DigitsValue("299") == 299 by {
      assert "299"[..2] == "29" && "29"[..1] == "2" && "2"[..0] == "";
    }
  }

  /** The intended extraction reads the whole digit run after the first rupee sign. */
  lemma CardPriceReadsDigits(prefix: string, digits: string, suffix: string)
    requires forall k :: 0 <= k < |prefix| ==> prefix[k] != RupeeSign[0]
    requires digits != [] && AllDigits(digits)
    requires suffix == [] || !IsDigit(suffix[0])
    ensures CardPrice(prefix + RupeeSign + digits + suffix) == Some(DigitsValue(digits))
  {
    var text := prefix + RupeeSign + digits + suffix;
    var i := |prefix|;
    RupeeFirstAt(prefix, digits + suffix, text);
    DigitRunOf(text, i + 1, digits, suffix);
    var r := PriceAfter(RupeeSign, text);
    var k :| MarkerAt(RupeeSign, text, k) && (forall j :: 0 <= j < k ==> !MarkerAt(RupeeSign, text, j))
             && r.value == DigitRun(text, k + 1);
    assert k == i;
  }

  /** With no rupee sign before it, the first price marker is the one after `prefix`. */
  lemma RupeeFirstAt(prefix: string, rest: string, text: string)
    requires forall k :: 0 <= k < |prefix| ==> prefix[k] != RupeeSign[0]
    requires rest != [] && IsDigit(rest[0]) && text == prefix + RupeeSign + rest
    ensures MarkerAt(RupeeSign, text, |prefix|)
    ensures forall j :: 0 <= j < |prefix| ==> !MarkerAt(RupeeSign, text, j)
  {
    var i := |prefix|;
    assert text[i..i + 1] == RupeeSign;
    assert text[i + 1] == rest[0];
    forall j | 0 <= j < i ensures !MarkerAt(RupeeSign, text, j) {
      assert text[j..j + 1][0] == text[j] == prefix[j];
    }
  }

  /** The digit run at `k` is `digits` when a non-digit or the end follows them. */
  lemma DigitRunOf(text: string, k: nat, digits: string, suffix: string)
    requires k <= |text| && text[k..] == digits + suffix
    requires AllDigits(digits) && (suffix == [] || !IsDigit(suffix[0]))
    ensures DigitRun(text, k) == DigitsValue(digits)
  {
    var rest := text[k..];
    assert rest[..|digits|] == digits;
    LeadingDigitsOfDigitPrefix(rest, digits);
  }

  // ---------------------------------------------------------------------------
  // Insert-or-increment

  /** `cart.findIndex(i => i.name === name)`. */
  function FindByName(cart: seq<CartEntry>, name: string): (r: Option<nat>)
    ensures r.Some? ==> r.value < |cart| && cart[r.value].name == name
                        && forall j :: 0 <= j < r.value ==> cart[j].name != name
    ensures r.None? <==> forall j :: 0 <= j < |cart| ==> cart[j].name != name
  {
    Seqs.FirstIndex(cart, (e: CartEntry) => e.name == name)
  }

  /** Adds one unit of `name` at `price`: increments the first entry with that name,
      or appends a new entry with quantity 1. A missing stored cart is empty. */
  function AddToCart(stored: Option<seq<CartEntry>>, name: string, price: int): (r: seq<CartEntry>)
    ensures var cart := stored.GetOr([]);
            FindByName(cart, name).None? ==> r == cart + [CartEntry(name, price, 1)]
    ensures var cart := stored.GetOr([]);
            FindByName(cart, name).Some? ==>
              var i := FindByName(cart, name).value;
              && |r| == |cart|
              && r[i] == cart[i].(quantity := cart[i].quantity + 1)
              && forall j :: 0 <= j < |cart| && j != i ==> r[j] == cart[j]
  {
    var cart := stored.GetOr([]);
    match FindByName(cart, name)
    case Some(i) => cart[i := cart[i].(quantity := cart[i].quantity + 1)]
    case None => cart + [CartEntry(name, price, 1)]
  }

  /** The click handler reading prices after `marker`: with no price on the card the
      handler throws and the stored cart stays as it was; otherwise one unit of the
      item is merged in at the card's price. */
  function OnAdd(marker: string, stored: Option<seq<CartEntry>>, name: string, priceText: string)
    : (r: Result<seq<CartEntry>, ()>)
    ensures r.Failure? <==> forall j {:trigger MarkerAt(marker, priceText, j)} :: !MarkerAt(marker, priceText, j)
    ensures r.Success? ==>
              && TotalQuantity(r.value) == TotalQuantity(stored.GetOr([])) + 1
              && QuantityOf(r.value, name) == QuantityOf(stored.GetOr([]), name) + 1
              && (forall other :: other != name ==>
                    QuantityOf(r.value, other) == QuantityOf(stored.GetOr([]), other))
              && (UniqueNames(stored.GetOr([])) ==> UniqueNames(r.value))
    ensures r.Success? ==>
              PriceAfter(marker, priceText).Some?
              && r.value == AddToCart(stored, name, PriceAfter(marker, priceText).value)
  {
    match PriceAfter(marker, priceText)
    case None => Failure(())
    case Some(price) =>
      AddCounts(stored, name, price);
      Success(AddToCart(stored, name, price))
  }

  /** The handler as the script writes it, searching for the mis-encoded marker: on a
      card text without U+00E2 it always throws. */
  function OnAddClickedAsWritten(stored: Option<seq<CartEntry>>, name: string, priceText: string)
    : (r: Result<seq<CartEntry>, ()>)
    ensures (forall k :: 0 <= k < |priceText| ==> priceText[k] != MarkerAsWritten[0]) ==> r == Failure(())
  {
    NoLeadCharNoMarker(MarkerAsWritten, priceText);
    OnAdd(MarkerAsWritten, stored, name, priceText)
  }

  /** The handler as intended, searching for the rupee sign: it adds one unit at the
      card's price exactly when the card shows one. */
  function OnAddClicked(stored: Option<seq<CartEntry>>, name: string, priceText: string)
    : (r: Result<seq<CartEntry>, ()>)
    ensures r.Success? <==> CardPrice(priceText).Some?
    ensures r.Success? ==> r.value == AddToCart(stored, name, CardPrice(priceText).value)
  {
    OnAdd(RupeeSign, stored, name, priceText)
  }

  /** Clicking "add" on a card showing "₹299" leaves the cart untouched as written,
      while the intended handler adds one unit at 299. */
  lemma RupeeCardClickedAsWritten(stored: Option<seq<CartEntry>>, name: string)
    ensures OnAddClickedAsWritten(stored, name, "\U{20B9}299") == Failure(())
    ensures OnAddClicked(stored, name, "\U{20B9}299") == Success(AddToCart(stored, name, 299))
  {
    RupeePriceNotFoundAsWritten();
  }

  // ---------------------------------------------------------------------------
  // Properties of the merge

  predicate UniqueNames(cart: seq<CartEntry>) {
    forall i, j :: 0 <= i < j < |cart| ==> cart[i].name != cart[j].name
  }

  /** Sum of all quantities. */
  function TotalQuantity(cart: seq<CartEntry>): int {
    if cart == [] then 0 else TotalQuantity(cart[..|cart| - 1]) + cart[|cart| - 1].quantity
  }

  /** How many units of `name` the cart holds, over all entries with that name. */
  function QuantityOf(cart: seq<CartEntry>, name: string): int {
    if cart == [] then 0
    else QuantityOf(cart[..|cart| - 1], name)
         + (if cart[|cart| - 1].name == name then cart[|cart| - 1].quantity else 0)
  }

  /** Adding never creates a second entry for a name. */
  lemma AddKeepsNamesUnique(stored: Option<seq<CartEntry>>, name: string, price: int)
    ensures UniqueNames(stored.GetOr([])) ==> UniqueNames(AddToCart(stored, name, price))
  {
  }

  /** The merge's guarantees together, for every other name at once. */
  lemma AddCounts(stored: Option<seq<CartEntry>>, name: string, price: int)
    ensures var r := AddToCart(stored, name, price);
            && TotalQuantity(r) == TotalQuantity(stored.GetOr([])) + 1
            && QuantityOf(r, name) == QuantityOf(stored.GetOr([]), name) + 1
            && (forall other :: other != name ==>
                  QuantityOf(r, other) == QuantityOf(stored.GetOr([]), other))
            && (UniqueNames(stored.GetOr([])) ==> UniqueNames(r))
  {
    AddCountsOneUnit(stored, name, price);
    AddKeepsNamesUnique(stored, name, price);
    AddCountsPerName(stored, name, price, name);
    forall other | other != name
      ensures QuantityOf(AddToCart(stored, name, price), other) == QuantityOf(stored.GetOr([]), other)
    {
      AddCountsPerName(stored, name, price, other);
    }
  }

  /** Each add raises the total quantity by exactly 1 and the length by at most 1. */
  lemma AddCountsOneUnit(stored: Option<seq<CartEntry>>, name: string, price: int)
    ensures TotalQuantity(AddToCart(stored, name, price)) == TotalQuantity(stored.GetOr([])) + 1
    ensures |stored.GetOr([])| <= |AddToCart(stored, name, price)| <= |stored.GetOr([])| + 1
  {
    var cart := stored.GetOr([]);
    var r := AddToCart(stored, name, price);
    match FindByName(cart, name)
    case Some(i) =>
      assert r == cart[i := cart[i].(quantity := cart[i].quantity + 1)];
      TotalQuantityUpdate(cart, i, r[i]);
    case None =>
      assert r[..|r| - 1] == cart;
  }

  /** Adding `name` adds one unit of `name` and leaves every other name's count alone. */
  lemma AddCountsPerName(stored: Option<seq<CartEntry>>, name: string, price: int, other: string)
    ensures QuantityOf(AddToCart(stored, name, price), name) == QuantityOf(stored.GetOr([]), name) + 1
    ensures other != name ==>
              QuantityOf(AddToCart(stored, name, price), other) == QuantityOf(stored.GetOr([]), other)
  {
    var cart := stored.GetOr([]);
    var r := AddToCart(stored, name, price);
    match FindByName(cart, name)
    case Some(i) =>
      assert r == cart[i := cart[i].(quantity := cart[i].quantity + 1)];
      QuantityOfUpdate(cart, i, r[i], name);
      QuantityOfUpdate(cart, i, r[i], other);
    case None =>
      assert r[..|r| - 1] == cart;
  }

  lemma {:induction false} TotalQuantityUpdate(s: seq<CartEntry>, i: nat, e: CartEntry)
    requires i < |s|
    ensures TotalQuantity(s[i := e]) == TotalQuantity(s) - s[i].quantity + e.quantity
    decreases |s|
  {
    var t := s[i := e];
    var n := |s| - 1;
    if i < n {
      assert t[..n] == s[..n][i := e];
      TotalQuantityUpdate(s[..n], i, e);
    } else {
      assert t[..n] == s[..n];
    }
  }

  lemma {:induction false} QuantityOfUpdate(s: seq<CartEntry>, i: nat, e: CartEntry, name: string)
    requires i < |s| && e.name == s[i].name
    ensures QuantityOf(s[i := e], name)
              == QuantityOf(s, name) + (if e.name == name then e.quantity - s[i].quantity else 0)
    decreases |s|
  {
    var t := s[i := e];
    var n := |s| - 1;
    if i < n {
      assert t[..n] == s[..n][i := e];
      QuantityOfUpdate(s[..n], i, e, name);
    } else {
      assert t[..n] == s[..n];
    }
  }
}

=== FILE: fixpaths.dfy ===
/** The path fixer (`fixPaths` in fix-paths.js): five rewrite passes that turn
    relative `href` and `src` attribute values into root-absolute ones by prefixing
    `/`. A document is a sequence of segments: quoted `href="..."` / `src="..."`
    values, and the text between them. */
module FixPaths {

  datatype AttrKind = Href | Src

  datatype Segment = Text(s: string) | Attr(kind: AttrKind, value: string)

  type Document = seq<Segment>

  predicate StartsWith(s: string, prefix: string) {
    |prefix| <= |s| && s[..|prefix|] == prefix
  }

  predicate EndsWith(s: string, suffix: string) {
    |suffix| <= |s| && s[|s| - |suffix|..] == suffix
  }

  /** `s.includes(part)`. */
  predicate Contains(s: string, part: string) {
    StartsWith(s, part) || (s != [] && Contains(s[1..], part))
  }

  /** Neither root-relative nor starting with `http`. */
  predicate Relative(v: string) {
    !StartsWith(v, "/") && !StartsWith(v, "http")
  }

  /** The five passes, in the order they run. */
  datatype Pass = CssLinks | ImageSources | PageLinks | StyleLinks | HtmlLinks

  /** Whether `pass` rewrites an attribute of this kind with this value. No pass
      matches an empty value, and only the image pass touches `src`. */
  predicate Fires(pass: Pass, kind: AttrKind, v: string)
    ensures Fires(pass, kind, v) ==> v != [] && (kind == Src <==> pass == ImageSources)
  {
    match pass
    case CssLinks => kind == Href && EndsWith(v, ".css") && Relative(v)
    case ImageSources => kind == Src && StartsWith(v, "images/")
    case PageLinks => kind == Href && StartsWith(v, "pages/")
    case StyleLinks => kind == Href && StartsWith(v, "style/")
    case HtmlLinks => kind == Href && EndsWith(v, ".html") && Relative(v) && !Contains(v, "://")
  }

  function Rewrite(pass: Pass, seg: Segment): Segment {
    match seg
    case Text(_) => seg
    case Attr(kind, v) => if Fires(pass, kind, v) then Attr(kind, "/" + v) else seg
  }

  /** One `replace(/.../g, ...)` call: every attribute the pass matches gains a
      leading `/`; everything else stays as it was. */
  function ApplyPass(pass: Pass, doc: Document): (r: Document)
    ensures |r| == |doc|
    ensures forall i :: 0 <= i < |doc| && doc[i].Text? ==> r[i] == doc[i]
    ensures forall i :: 0 <= i < |doc| && doc[i].Attr? ==>
              r[i] == Attr(doc[i].kind, if Fires(pass, doc[i].kind, doc[i].value) then "/" + doc[i].value
                                        else doc[i].value)
  {
    seq(|doc|, i requires 0 <= i < |doc| => Rewrite(pass, doc[i]))
  }

  /** `fixPaths`: the five passes in source order. Together they add at most one `/`:
      text is untouched, and each attribute value gains a `/` exactly when some pass
      matches its ORIGINAL value. */
  function Fix(doc: Document): (r: Document)
    ensures |r| == |doc|
    ensures forall i :: 0 <= i < |doc| && doc[i].Text? ==> r[i] == doc[i]
    ensures forall i :: 0 <= i < |doc| && doc[i].Attr? ==>
              r[i] == Attr(doc[i].kind, if NeedsPrefix(doc[i].kind, doc[i].value)
                                        then "/" + doc[i].value else doc[i].value)
  {
    PrefixedValuesStay(doc);
    ApplyPass(HtmlLinks, ApplyPass(StyleLinks, ApplyPass(PageLinks,
      ApplyPass(ImageSources, ApplyPass(CssLinks, doc)))))
  }

  /** Once prefixed, no attribute value of `doc` is matched again. */
  lemma PrefixedValuesStay(doc: Document)
    ensures forall i :: 0 <= i < |doc| && doc[i].Attr? ==> !NeedsPrefix(doc[i].kind, "/" + doc[i].value)
  {
    forall i | 0 <= i < |doc| && doc[i].Attr? ensures !NeedsPrefix(doc[i].kind, "/" + doc[i].value) {
      NoPassFiresOnPrefixed(doc[i].kind, doc[i].value);
    }
  }

  /** The rule that makes a value root-absolute, judged on the ORIGINAL value: at
      least one pass matches it. */
  predicate NeedsPrefix(kind: AttrKind, v: string) {
    Fires(CssLinks, kind, v) || Fires(ImageSources, kind, v) || Fires(PageLinks, kind, v)
    || Fires(StyleLinks, kind, v) || Fires(HtmlLinks, kind, v)
  }

  /** Every pass fires only on values that do not start with `/`. */
  lemma FiresOnlyOnUnprefixed(pass: Pass, kind: AttrKind, v: string)
    requires Fires(pass, kind, v)
    ensures !StartsWith(v, "/")
  {
    if pass.ImageSources? || pass.PageLinks? || pass.StyleLinks? {
      assert v[0] != '/';
    }
  }

  /** A value that already starts with `/` is left alone by every pass. */
  lemma NoPassFiresOnPrefixed(kind: AttrKind, v: string)
    ensures !NeedsPrefix(kind, "/" + v)
  {
    var w := "/" + v;
    assert StartsWith(w, "/");
    forall pass: Pass ensures !Fires(pass, kind, w) {
      if Fires(pass, kind, w) {
        FiresOnlyOnUnprefixed(pass, kind, w);
      }
    }
  }

  /** Running the fixer on its own output changes nothing: on a second run every
      file takes the "No changes needed" branch. */
  lemma FixIdempotent(doc: Document)
    ensures Fix(Fix(doc)) == Fix(doc)
  {
    var once := Fix(doc);
    forall i | 0 <= i < |doc| ensures Fix(once)[i] == once[i] {
      if doc[i].Attr? {
        var kind, v := doc[i].kind, doc[i].value;
        if NeedsPrefix(kind, v) {
          NoPassFiresOnPrefixed(kind, v);
        }
      }
    }
  }

  /** A stylesheet under pages/ is prefixed once, by the first pass. */
  lemma FixNestedStylesheet()
    ensures Fix([Attr(Href, "pages/a.css")]) == [Attr(Href, "/pages/a.css")]
  {
    assert "pages/a.css"[..6] == "pages/";
    assert Fires(PageLinks, Href, "pages/a.css");
    assert "/" + "pages/a.css" == "/pages/a.css";
  }
}

=== FILE: js.dfy ===
/** JSON request values and the handful of JavaScript coercions the route handlers
    apply to them: truthiness, property access, `String.prototype.trim`, `Number(v)`,
    `parseInt(v, 10)` and `String(n)`. Numbers are integers throughout the model, and
    a numeric string is an optional sign followed by decimal digits. */
module Js {
  import opened Wrappers

  /** A value as it arrives in a parsed request body. */
  datatype Json =
    | JUndefined
    | JNull
    | JBool(b: bool)
    | JNum(n: int)
    | JStr(s: string)
    | JArray(elems: seq<Json>)
    | JObject(fields: map<string, Json>)

  /** JavaScript truthiness: `undefined`, `null`, `false`, `0` and `""` are falsy. For
      numbers and booleans it is `Number(v) != 0`; arrays and objects are truthy. */
  predicate Truthy(v: Json)
    ensures Truthy(v) ==> !v.JUndefined? && !v.JNull?
    ensures v.JNum? || v.JBool? ==> (Truthy(v) <==> ToNumber(v) != Some(0))
    ensures v.JArray? || v.JObject? ==> Truthy(v)
  {
    match v
    case JUndefined => false
    case JNull => false
    case JBool(b) => b
    case JNum(n) => n != 0
    case JStr(s) => s != ""
    case JArray(_) => true
    case JObject(_) => true
  }

  /** `v.key`: `None` when reading a property of `null` or `undefined` throws a
      `TypeError`; a missing key, or any key of a primitive, reads as `undefined`. */
  function Prop(v: Json, key: string): (r: Option<Json>)
    ensures r.None? <==> v.JNull? || v.JUndefined?
    ensures v.JObject? && key in v.fields ==> r == Some(v.fields[key])
    ensures r.Some? && !(v.JObject? && key in v.fields) ==> r == Some(JUndefined)
  {
    match v
    case JUndefined => None
    case JNull => None
    case JObject(fields) => if key in fields then Some(fields[key]) else Some(JUndefined)
    case _ => Some(JUndefined)
  }

  /** The characters `trim` removes: the WhiteSpace and LineTerminator productions of
      ECMAScript (tab, vertical tab, form feed, BOM, every space separator, LF, CR,
      LS and PS). */
  predicate IsWhitespace(c: char) {
    || c == '\t' || c == '\n' || c == '\U{0B}' || c == '\U{0C}' || c == '\r'
    || c == ' ' || c == '\U{A0}' || c == '\U{1680}'
    || ('\U{2000}' <= c <= '\U{200A}')
    || c == '\U{2028}' || c == '\U{2029}' || c == '\U{202F}' || c == '\U{205F}'
    || c == '\U{3000}' || c == '\U{FEFF}'
  }

  /** Drops leading whitespace: the result is the suffix of `s` that starts at its
      first non-whitespace character. */
  function TrimStart(s: string): (r: string)
    ensures |r| <= |s| && r == s[|s| - |r|..]
    ensures forall i :: 0 <= i < |s| - |r| ==> IsWhitespace(s[i])
    ensures r == [] || !IsWhitespace(r[0])
  {
    if s != [] && IsWhitespace(s[0]) then TrimStart(s[1..]) else s
  }

  /** Drops trailing whitespace: the result is the prefix of `s` that ends at its
      last non-whitespace character. */
  function TrimEnd(s: string): (r: string)
    ensures |r| <= |s| && r == s[..|r|]
    ensures forall i :: |r| <= i < |s| ==> IsWhitespace(s[i])
    ensures r == [] || !IsWhitespace(r[|r| - 1])
  {
    if s != [] && IsWhitespace(s[|s| - 1]) then TrimEnd(s[..|s| - 1]) else s
  }

  /** `s.trim()`: whitespace cut from both ends; empty exactly when `s` is blank.
      `TrimIsMiddle` states where the result sits in `s`. */
  function Trim(s: string): (r: string)
    ensures |r| <= |s|
    ensures r == [] <==> forall i :: 0 <= i < |s| ==> IsWhitespace(s[i])
    ensures r == [] || (!IsWhitespace(r[0]) && !IsWhitespace(r[|r| - 1]))
  {
    var t := TrimStart(s);
    var r := TrimEnd(t);
    TrimSlice(s, t, r);
    r
  }

  /** Trimming removes white space from the two ends only: the result is the text of
      `s` that starts right after its leading white space, and everything after it is
      white space. */
  lemma TrimIsMiddle(s: string)
    ensures var r := Trim(s);
            var a := |s| - |TrimStart(s)|;
            && a + |r| <= |s|
            && (forall k :: 0 <= k < |r| ==> r[k] == s[a + k])
            && (forall i :: 0 <= i < a ==> IsWhitespace(s[i]))
            && (forall i :: a + |r| <= i < |s| ==> IsWhitespace(s[i]))
  {
    var t := TrimStart(s);
    var r := TrimEnd(t);
    assert Trim(s) == r;
    TrimSlice(s, t, r);
  }

  /** Where the trimmed text sits in `s`: right after the leading white space. */
  lemma TrimSlice(s: string, t: string, r: string)
    requires |t| <= |s| && t == s[|s| - |t|..]
    requires |r| <= |t| && r == t[..|r|]
    requires forall i :: |r| <= i < |t| ==> IsWhitespace(t[i])
    ensures |s| - |t| + |r| <= |s|
    ensures forall k :: 0 <= k < |r| ==> r[k] == s[|s| - |t| + k]
    ensures forall i :: |s| - |t| + |r| <= i < |s| ==> IsWhitespace(s[i])
  {
    var a := |s| - |t|;
    forall k | 0 <= k < |r| ensures r[k] == s[a + k] {
      assert r[k] == t[k];
    }
    forall i | a + |r| <= i < |s| ensures IsWhitespace(s[i]) {
      assert s[i] == t[i - a];
    }
  }

  /** Trimming removes white space from the two ends only: what remains is the
      original text between its first and last non-white-space characters. */
  lemma TrimKeepsMiddle(s: string, a: nat, b: nat)
    requires a <= b <= |s| && (forall i :: 0 <= i < a ==> IsWhitespace(s[i]))
    requires forall i :: b <= i < |s| ==> IsWhitespace(s[i])
    requires a < b ==> !IsWhitespace(s[a]) && !IsWhitespace(s[b - 1])
    ensures Trim(s) == s[a..b]
  {
  }

  predicate IsDigit(c: char) { '0' <= c <= '9' }

  predicate AllDigits(s: string) {
    forall i :: 0 <= i < |s| ==> IsDigit(s[i])
  }

  function DigitValue(c: char): (d: nat)
    requires IsDigit(c)
    ensures d < 10
  {
    c as int - '0' as int
  }

  function DigitChar(d: nat): (c: char)
    requires d < 10
    ensures IsDigit(c) && DigitValue(c) == d
  {
    ('0' as int + d) as char
  }

  /** The value of a run of decimal digits, most significant first. */
  function DigitsValue(s: string): nat
    requires AllDigits(s)
  {
    if s == [] then 0 else DigitsValue(s[..|s| - 1]) * 10 + DigitValue(s[|s| - 1])
  }

  /** The longest prefix of `s` made of decimal digits. */
  function LeadingDigits(s: string): (r: string)
    ensures AllDigits(r) && |r| <= |s| && r == s[..|r|]
    ensures |r| < |s| ==> !IsDigit(s[|r|])
  {
    if s != [] && IsDigit(s[0]) then [s[0]] + LeadingDigits(s[1..]) else []
  }

  /** A decimal literal as `Number` reads it in this model: an optional sign and at
      least one digit, nothing else. */
  function SignedDecimal(t: string): (r: Option<int>)
    ensures r.Some? ==> t != []
  {
    if t != [] && (t[0] == '-' || t[0] == '+') then
      var digits := t[1..];
      if digits != [] && AllDigits(digits) then
        var value: int := DigitsValue(digits);
        Some(if t[0] == '-' then -value else value)
      else None
    else if t != [] && AllDigits(t) then Some(DigitsValue(t))
    else None
  }

  /** `Number(s)` for a string: blank strings give 0, a signed decimal gives its value,
      anything else is `NaN` (`None`). */
  function StringToNumber(s: string): Option<int> {
    var t := Trim(s);
    if t == [] then Some(0) else SignedDecimal(t)
  }

  /** `Number(v)`; `None` is `NaN`. Arrays and objects coerce to `NaN` in this model. */
  function ToNumber(v: Json): (r: Option<int>)
    ensures v.JNum? ==> r == Some(v.n)
    ensures v.JNull? ==> r == Some(0)
    ensures v.JUndefined? || v.JArray? || v.JObject? ==> r.None?
    ensures v.JBool? ==> r == Some(if v.b then 1 else 0)
    ensures v.JStr? && Trim(v.s) == [] ==> r == Some(0)
  {
    match v
    case JUndefined => None
    case JNull => Some(0)
    case JBool(b) => Some(if b then 1 else 0)
    case JNum(n) => Some(n)
    case JStr(s) => StringToNumber(s)
    case JArray(_) => None
    case JObject(_) => None
  }

  /** `parseInt(s, 10)`: skip leading whitespace, then read a signed digit run. */
  function ParseIntString(s: string): (r: Option<int>)
    ensures Trim(s) == [] ==> r.None?
    ensures s != [] && AllDigits(s) ==> r == Some(DigitsValue(s))
  {
    BlankHasNoStart(s);
    PlainDigitsParse(s);
    ParseSignedPrefix(TrimStart(s))
  }

  /** A blank string has nothing left after its leading white space. */
  lemma BlankHasNoStart(s: string)
    ensures Trim(s) == [] ==> TrimStart(s) == []
  {
    var t := TrimStart(s);
    if t != [] {
      assert t[0] == s[|s| - |t|];
    }
  }

  /** A plain run of digits is read whole. */
  lemma PlainDigitsParse(s: string)
    ensures s != [] && AllDigits(s) ==> ParseSignedPrefix(TrimStart(s)) == Some(DigitsValue(s))
  {
    if s != [] && AllDigits(s) {
      assert !IsWhitespace(s[0]);
      SignedPrefixOfDecimal(s, s);
    }
  }

  /** An optional sign and the longest run of digits after it; `NaN` (`None`) when
      that run is empty. */
  function ParseSignedPrefix(u: string): Option<int> {
    var negative := u != [] && u[0] == '-';
    var rest := if u != [] && (u[0] == '-' || u[0] == '+') then u[1..] else u;
    var digits := LeadingDigits(rest);
    if digits == [] then None
    else
      var value: int := DigitsValue(digits);
      Some(if negative then -value else value)
  }

  /** `parseInt(v, 10)`, which first converts `v` to a string: a number gives itself,
      and `String(v)` of the other non-string values (`"true"`, `"null"`,
      `"[object Object]"`, ...) has no leading digits. */
  function ParseInt(v: Json): (r: Option<int>)
    ensures v.JNum? ==> r == Some(v.n)
    ensures !v.JNum? && !v.JStr? ==> r.None?
    ensures v.JStr? && Trim(v.s) == [] ==> r.None?
    ensures v.JStr? && v.s != [] && AllDigits(v.s) ==> r == Some(DigitsValue(v.s))
  {
    match v
    case JNum(n) => Some(n)
    case JStr(s) => ParseIntString(s)
    case _ => None
  }

  /** `String(n)` for a natural number: its decimal digits without leading zeros. */
  function NatToDecimal(n: nat): (s: string)
    ensures s != [] && AllDigits(s) && DigitsValue(s) == n
    ensures |s| > 1 ==> s[0] != '0'
  {
    if n < 10 then [DigitChar(n)]
    else
      var prefix := NatToDecimal(n / 10);
      var s := prefix + [DigitChar(n % 10)];
      assert s[..|s| - 1] == prefix;
      s
  }

  /** `String(n)` for an integer. */
  function IntToDecimal(n: int): (s: string)
    ensures s != []
  {
    if n < 0 then "-" + NatToDecimal(-n) else NatToDecimal(n)
  }

  /** `Number(String(n)) == n`: the decimal rendering reads back as the same number. */
  lemma IntToDecimalRoundTrip(n: int)
    ensures SignedDecimal(IntToDecimal(n)) == Some(n)
  {
    var s := IntToDecimal(n);
    if n < 0 {
      assert s[1..] == NatToDecimal(-n);
    }
  }

  /** On a value `Number` reads as a non-blank decimal string, `parseInt` reads
      the same integer. */
  lemma ParseIntAgreesWithNumber(s: string)
    requires Trim(s) != [] && StringToNumber(s).Some?
    ensures ParseIntString(s) == StringToNumber(s)
  {
    var u := TrimStart(s);
    var t := TrimEnd(u);
    assert Trim(s) == t;
    SignedPrefixOfDecimal(u, t);
  }

  /** A signed decimal followed by a non-digit parses to the decimal's value. */
  lemma SignedPrefixOfDecimal(u: string, t: string)
    requires |t| <= |u| && u[..|t|] == t
    requires |t| < |u| ==> !IsDigit(u[|t|])
    requires SignedDecimal(t).Some?
    ensures ParseSignedPrefix(u) == SignedDecimal(t)
  {
    var signed := t[0] == '-' || t[0] == '+';
    var core := if signed then t[1..] else t;
    var rest := if signed then u[1..] else u;
    assert u[0] == t[0];
    assert rest[..|core|] == core;
    if |core| < |rest| {
      assert rest[|core|] == u[|t|];
    }
    LeadingDigitsOfDigitPrefix(rest, core);
  }

  lemma {:induction false} LeadingDigitsOfDigitPrefix(s: string, p: string)
    requires AllDigits(p) && |p| <= |s| && s[..|p|] == p
    requires |p| < |s| ==> !IsDigit(s[|p|])
    ensures LeadingDigits(s) == p
  {
    if p != [] {
      assert s[0] == p[0];
      assert s[1..][..|p| - 1] == p[1..];
      LeadingDigitsOfDigitPrefix(s[1..], p[1..]);
      assert LeadingDigits(s) == [s[0]] + p[1..];
    } else if s != [] {
      assert !IsDigit(s[0]);
    }
  }
}

=== FILE: menu.dfy ===
/** The menu catalogue: the `MenuItem` schema (backend/models/MenuItem.js) and the
    public menu routes (backend/routes/menu.js). The collection is a sequence of items
    in insertion order and the clock is a parameter. */
module Menu {
  import opened Wrappers
  import opened Js
  import Recency

  /** The category an item gets when the request does not name one. */
  const DefaultCategory: string := "General"

  /** A stored menu item. Optional fields hold `None` when they are absent or `null`. */
  datatype MenuItem = MenuItem(
    name: string,
    description: Option<string>,
    price: int,
    imageUrl: Option<string>,
    category: Option<string>,
    available: Option<bool>,
    createdAt: int,
    updatedAt: int)

  /** The schema's validators: a name (a required string is non-empty) and a price
      of at least 0. */
  predicate ValidMenuItem(m: MenuItem) {
    m.name != "" && m.price >= 0
  }

  datatype Catalogue = Catalogue(items: seq<MenuItem>)

  ghost predicate WellFormed(c: Catalogue) {
    forall i :: 0 <= i < |c.items| ==> ValidMenuItem(c.items[i])
  }

  // ---------------------------------------------------------------------------
  // Schema casts: what Mongoose stores for a request value of a String, Number or
  // Boolean path. `Failure` is a cast error; `Success(None)` stores nothing or null.

  function CastString(v: Json): (r: Result<Option<string>, ()>)
    ensures v.JStr? ==> r == Success(Some(v.s))
    ensures v.JUndefined? || v.JNull? ==> r == Success(None)
    ensures v.JArray? || v.JObject? ==> r.Failure?
  {
    match v
    case JUndefined => Success(None)
    case JNull => Success(None)
    case JBool(b) => Success(Some(if b then "true" else "false"))
    case JNum(n) => Success(Some(IntToDecimal(n)))
    case JStr(s) => Success(Some(s))
    case _ => Failure(())
  }

  function CastNumber(v: Json): (r: Result<Option<int>, ()>)
    ensures v.JNum? ==> r == Success(Some(v.n))
    ensures v.JUndefined? || v.JNull? || v == JStr("") ==> r == Success(None)
    ensures v.JArray? || v.JObject? ==> r.Failure?
  {
    match v
    case JUndefined => Success(None)
    case JNull => Success(None)
    case JBool(b) => Success(Some(if b then 1 else 0))
    case JNum(n) => Success(Some(n))
    case JStr(s) =>
      if s == "" then Success(None)
      else if StringToNumber(s).None? then Failure(())
      else Success(Some(StringToNumber(s).value))
    case _ => Failure(())
  }

  /** Mongoose's boolean cast: `true`, `1`, `"true"`, `"1"` and `"yes"` are true;
      their opposites are false; anything else is a cast error. */
  function CastBoolean(v: Json): (r: Result<Option<bool>, ()>)
    ensures v.JBool? ==> r == Success(Some(v.b))
    ensures v.JUndefined? || v.JNull? ==> r == Success(None)
  {
    match v
    case JUndefined => Success(None)
    case JNull => Success(None)
    case JBool(b) => Success(Some(b))
    case JNum(n) => if n == 1 then Success(Some(true)) else if n == 0 then Success(Some(false)) else Failure(())
    case JStr(s) =>
      if s == "true" || s == "1" || s == "yes" then Success(Some(true))
      else if s == "false" || s == "0" || s == "no" then Success(Some(false))
      else Failure(())
    case _ => Failure(())
  }

  /** A path with a schema default takes it only when the request leaves it `undefined`. */
  function WithDefault<T>(v: Json, cast: Result<Option<T>, ()>, default: T): (r: Result<Option<T>, ()>)
    ensures v.JUndefined? ==> r == Success(Some(default))
    ensures !v.JUndefined? ==> r == cast
  {
    if v.JUndefined? then Success(Some(default)) else cast
  }

  // ---------------------------------------------------------------------------
  // Listing (GET /)

  function CreatedAt(m: MenuItem): int { m.createdAt }

  /** GET / : the items whose `available` flag is `true`, newest first. */
  function ListAvailable(c: Catalogue): (r: seq<MenuItem>)
    ensures forall i :: 0 <= i < |r| ==> r[i].available == Some(true)
    ensures Recency.NewestFirst(r, CreatedAt)
    ensures forall m :: multiset(r)[m] == if m.available == Some(true) then multiset(c.items)[m] else 0
  {
    var kept := Recency.Filter(c.items, (m: MenuItem) => m.available == Some(true));
    var r := Recency.SortNewestFirst(kept, CreatedAt);
    assert forall i :: 0 <= i < |r| ==> r[i] in multiset(kept);
    r
  }

  /** An item is listed exactly when it is in the catalogue and available. */
  lemma ListedIffAvailable(c: Catalogue, m: MenuItem)
    ensures m in ListAvailable(c) <==> m in c.items && m.available == Some(true)
  {
    var r := ListAvailable(c);
    assert m in r <==> multiset(r)[m] > 0;
    assert m in c.items <==> multiset(c.items)[m] > 0;
  }

  // ---------------------------------------------------------------------------
  // Creation (POST /)

  datatype CreateError =
    | MissingFields  // 400 "name and price required"
    | Thrown         // the body cannot be destructured, or `MenuItem.create` rejects:
                     // the route catches nothing, so no response is written for it

  datatype Creation = Creation(catalogue: Catalogue, response: Result<MenuItem, CreateError>)

  /** What `MenuItem.create` accepts from a body that passed the required-field check:
      every field casts to its path's type, the name casts to a non-empty string and
      the price to a number of at least 0. */
  predicate SchemaAccepts(body: Json)
    requires Prop(body, "name").Some?
  {
    && CastString(Prop(body, "name").value).Success?
    && CastString(Prop(body, "name").value).value.Some?
    && CastString(Prop(body, "name").value).value.value != ""
    && CastNumber(Prop(body, "price").value).Success?
    && CastNumber(Prop(body, "price").value).value.Some?
    && CastNumber(Prop(body, "price").value).value.value >= 0
    && CastString(Prop(body, "description").value).Success?
    && CastString(Prop(body, "imageUrl").value).Success?
    && CastString(Prop(body, "category").value).Success?
    && CastBoolean(Prop(body, "available").value).Success?
  }

  /** POST / : reads name, price, imageUrl, description, category and available from
      the body, checks the two required ones, and stores the cast item at `now`. */
  function Create(c: Catalogue, body: Json, now: int): (k: Creation)
    ensures k.response.Failure? ==> k.catalogue == c
    ensures Prop(body, "name").None? ==> k.response == Failure(Thrown)
    ensures Prop(body, "name").Some? ==>
              (k.response == Failure(MissingFields) <==>
                 !Truthy(Prop(body, "name").value)
                 || Prop(body, "price").value.JNull? || Prop(body, "price").value.JUndefined?)
    ensures Prop(body, "name").Some? ==>
              (k.response.Success? <==>
                 Truthy(Prop(body, "name").value)
                 && !Prop(body, "price").value.JNull? && !Prop(body, "price").value.JUndefined?
                 && SchemaAccepts(body))
    ensures k.response.Success? ==>
              var m := k.response.value;
              && k.catalogue.items == c.items + [m]
              && ValidMenuItem(m)
              && m.createdAt == now == m.updatedAt
              && (Prop(body, "name").value.JStr? ==> m.name == Prop(body, "name").value.s)
              && (Prop(body, "price").value.JNum? ==> m.price == Prop(body, "price").value.n)
              && (Prop(body, "category").value.JUndefined? ==> m.category == Some(DefaultCategory))
              && (Prop(body, "category").value.JStr? ==> m.category == Some(Prop(body, "category").value.s))
              && (Prop(body, "description").value.JStr? ==>
                    m.description == Some(Prop(body, "description").value.s))
              && (Prop(body, "imageUrl").value.JStr? ==> m.imageUrl == Some(Prop(body, "imageUrl").value.s))
              && (Prop(body, "available").value.JUndefined? ==> m.available == Some(true))
              && (Prop(body, "available").value.JBool? ==>
                    m.available == Some(Prop(body, "available").value.b))
              && (Prop(body, "description").value.JUndefined? ==> m.description == None)
              && (Prop(body, "imageUrl").value.JUndefined? ==> m.imageUrl == None)
    ensures WellFormed(c) ==> WellFormed(k.catalogue)
  {
    match Prop(body, "name")
    case None => Creation(c, Failure(Thrown))
    case Some(name) =>
      var price := Prop(body, "price").value;
      if !Truthy(name) || price.JNull? || price.JUndefined? then Creation(c, Failure(MissingFields))
      else
        var category := Prop(body, "category").value;
        var available := Prop(body, "available").value;
        match (CastString(name), CastNumber(price), CastString(Prop(body, "description").value),
               CastString(Prop(body, "imageUrl").value),
               WithDefault(category, CastString(category), DefaultCategory),
               WithDefault(available, CastBoolean(available), true))
        case (Success(Some(n)), Success(Some(p)), Success(d), Success(img), Success(cat), Success(av)) =>
          if n == "" || p < 0 then Creation(c, Failure(Thrown))
          else
            var m := MenuItem(n, d, p, img, cat, av, now, now);
            Creation(Catalogue(c.items + [m]), Success(m))
        case _ => Creation(c, Failure(Thrown))
  }

  /** Creation reads only name, price, imageUrl, description, category and available:
      any other field of the body changes nothing. */
  lemma CreateReadsOnlyItsFields(c: Catalogue, body1: Json, body2: Json, now: int)
    requires Prop(body1, "name") == Prop(body2, "name")
    requires Prop(body1, "name").Some? ==>
               && Prop(body1, "price") == Prop(body2, "price")
               && Prop(body1, "imageUrl") == Prop(body2, "imageUrl")
               && Prop(body1, "description") == Prop(body2, "description")
               && Prop(body1, "category") == Prop(body2, "category")
               && Prop(body1, "available") == Prop(body2, "available")
    ensures Create(c, body1, now) == Create(c, body2, now)
  {
  }

  /** A body with a non-empty string name, a number price of at least 0, string or
      absent text fields and a boolean or absent `available` is stored with that name
      and price. */
  lemma WellTypedBodyCreated(c: Catalogue, body: Json, now: int, name: string, price: int)
    requires Prop(body, "name") == Some(JStr(name)) && name != ""
    requires Prop(body, "price") == Some(JNum(price)) && price >= 0
    requires forall f :: f in ["description", "imageUrl", "category"] ==>
               Prop(body, f).value.JUndefined? || Prop(body, f).value.JStr?
    requires Prop(body, "available").value.JUndefined? || Prop(body, "available").value.JBool?
    ensures Create(c, body, now).response.Success?
    ensures Create(c, body, now).response.value.name == name
    ensures Create(c, body, now).response.value.price == price
  {
    assert "description" in ["description", "imageUrl", "category"];
    assert "imageUrl" in ["description", "imageUrl", "category"];
    assert "category" in ["description", "imageUrl", "category"];
  }

  /** The required-field check lets price 0 through, and the schema stores it; a
      negative price passes the check but the schema's `min: 0` rejects it. */
  lemma PriceZeroAcceptedNegativeRejected(c: Catalogue, name: string, price: int, now: int)
    requires name != ""
    ensures Create(c, JObject(map["name" := JStr(name), "price" := JNum(0)]), now).response.Success?
    ensures price < 0 ==>
              Create(c, JObject(map["name" := JStr(name), "price" := JNum(price)]), now).response
                == Failure(Thrown)
  {
  }

  /** An item created without an `available` field shows up in later listings; one
      created with `available: false` never does. */
  lemma CreatedItemListing(c: Catalogue, body: Json, now: int)
    requires Create(c, body, now).response.Success?
    ensures var k := Create(c, body, now);
            Prop(body, "available").value.JUndefined? ==> k.response.value in ListAvailable(k.catalogue)
    ensures var k := Create(c, body, now);
            Prop(body, "available").value == JBool(false) ==> k.response.value !in ListAvailable(k.catalogue)
  {
    var k := Create(c, body, now);
    ListedIffAvailable(k.catalogue, k.response.value);
  }
}

=== FILE: orders.dfy ===
/** The order lifecycle: the `Order` schema (backend/models/Order.js) and the three
    authenticated order routes (backend/routes/orders.js). The document store is a
    sequence of orders, the authenticated caller's id and the clock are parameters. */
module Orders {
  import opened Wrappers
  import opened Js
  import Recency
  import Seqs

  /** The id `requireAuth` attaches to the request; ids compare by their string form,
      which the model reduces to equality. */
  type UserId = nat

  /** Milliseconds after creation during which an order may still be cancelled. */
  const CancelWindowMs: int := 2 * 60 * 1000

  /** The schema's default status is `Placed`; the placement route also sets it
      explicitly. */
  datatype Status = Placed | Preparing | OnTheWay | Delivered | Cancelled

  /** The stored spelling of each status. */
  function StatusName(s: Status): string {
    match s
    case Placed => "placed"
    case Preparing => "preparing"
    case OnTheWay => "on-the-way"
    case Delivered => "delivered"
    case Cancelled => "cancelled"
  }

  /** The schema's enum check: only the five spellings are statuses. */
  function ParseStatus(name: string): (r: Option<Status>)
    ensures r.Some? ==> StatusName(r.value) == name
  {
    if name == "placed" then Some(Placed)
    else if name == "preparing" then Some(Preparing)
    else if name == "on-the-way" then Some(OnTheWay)
    else if name == "delivered" then Some(Delivered)
    else if name == "cancelled" then Some(Cancelled)
    else None
  }

  lemma StatusNameRoundTrip(s: Status)
    ensures ParseStatus(StatusName(s)) == Some(s)
  {
  }

  datatype OrderItem = OrderItem(name: string, price: int, quantity: int)

  /** What the item schema demands: a non-empty name (a required string) and a
      quantity of at least 1. The price has no lower bound. */
  predicate ValidItem(it: OrderItem) {
    it.name != "" && it.quantity >= 1
  }

  datatype Order = Order(
    id: nat,
    user: UserId,
    items: seq<OrderItem>,
    total: int,
    status: Status,
    createdAt: int,
    updatedAt: int)

  predicate ValidOrder(o: Order) {
    forall i :: 0 <= i < |o.items| ==> ValidItem(o.items[i])
  }

  /** The order collection; `_id`s are assigned in insertion order. */
  datatype Store = Store(orders: seq<Order>)

  ghost predicate WellFormed(st: Store) {
    forall i :: 0 <= i < |st.orders| ==> st.orders[i].id == i && ValidOrder(st.orders[i])
  }

  /** Sum of price times quantity, accumulated from the first item on like `reduce`;
      items that charge nothing negative never make the total negative. */
  function Total(items: seq<OrderItem>): (t: int)
    ensures (forall i :: 0 <= i < |items| ==> items[i].price >= 0 && items[i].quantity >= 0) ==> t >= 0
  {
    if items == [] then 0
    else Total(items[..|items| - 1]) + items[|items| - 1].price * items[|items| - 1].quantity
  }

  /** The total of a concatenation is the sum of the totals. */
  lemma {:induction false} TotalAppend(a: seq<OrderItem>, b: seq<OrderItem>)
    ensures Total(a + b) == Total(a) + Total(b)
    decreases |b|
  {
    if b == [] {
      assert a + b == a;
    } else {
      var b' := b[..|b| - 1];
      assert (a + b)[..|a + b| - 1] == a + b';
      assert (a + b)[|a + b| - 1] == b[|b| - 1];
      TotalAppend(a, b');
    }
  }

  // ---------------------------------------------------------------------------
  // Placement (POST /)

  datatype ItemField = Name | Price | Quantity

  datatype PlaceError =
    | NoItems                                // `items` is not an array, or is empty
    | BadItem(index: nat, field: ItemField)  // "Item <index>: Missing or invalid <field>"
    | ServerError                            // any other exception, answered with 500

  function PlaceErrorStatus(e: PlaceError): int {
    match e
    case NoItems => 400
    case BadItem(_, _) => 400
    case ServerError => 500
  }

  /** A sanitised item before the store validates it: the quantity is `NaN` (`None`)
      when `parseInt` finds no digits. */
  datatype Draft = Draft(name: string, price: int, quantity: Option<int>)

  /** `Math.max(1, q)`, where `NaN` stays `NaN`. */
  function AtLeastOne(q: Option<int>): (r: Option<int>)
    ensures r.Some? <==> q.Some?
    ensures r.Some? ==> r.value >= 1 && r.value >= q.value
    ensures r.Some? ==> (q.value < 1 ==> r.value == 1) && (q.value >= 1 ==> r.value == q.value)
  {
    match q
    case None => None
    case Some(n) => Some(if n < 1 then 1 else n)
  }

  /** The truthiness-and-`Number` test applied to price and quantity. */
  predicate NumericAndTruthy(v: Json) {
    Truthy(v) && ToNumber(v).Some?
  }

  /** Validation and sanitising of the item at `index`, in the order the handler
      checks its fields. */
  function CheckItem(index: nat, raw: Json): (r: Result<Draft, PlaceError>)
    ensures r.Failure? ==> r.error == ServerError || r.error.BadItem?
    ensures r.Failure? && r.error.BadItem? ==> r.error.index == index
    ensures r.Success? ==> r.value.quantity.Some? ==> r.value.quantity.value >= 1
  {
    match Prop(raw, "name")
    case None => Failure(ServerError)
    case Some(name) =>
      var price := Prop(raw, "price").value;
      var quantity := Prop(raw, "quantity").value;
      if !Truthy(name) || !name.JStr? then Failure(BadItem(index, Name))
      else if !NumericAndTruthy(price) then Failure(BadItem(index, Price))
      else if !NumericAndTruthy(quantity) then Failure(BadItem(index, Quantity))
      else Success(Draft(Trim(name.s), ToNumber(price).value, AtLeastOne(ParseInt(quantity))))
  }

  /** An item passes exactly when it is an object with a non-empty string name and a
      truthy, numeric price and quantity; an item that is `null` throws a `TypeError`. */
  lemma CheckItemAcceptance(index: nat, raw: Json)
    ensures Prop(raw, "name").None? ==> CheckItem(index, raw) == Failure(ServerError)
    ensures CheckItem(index, raw).Success? <==>
              raw.JObject?
              && var name := Prop(raw, "name").value;
                 name.JStr? && name.s != ""
                 && NumericAndTruthy(Prop(raw, "price").value)
                 && NumericAndTruthy(Prop(raw, "quantity").value)
  {
  }

  /** The fields are tested in the handler's order, and a rejection names the first
      bad one: the name, then the price, then the quantity. */
  lemma CheckItemFieldOrder(index: nat, raw: Json)
    requires Prop(raw, "name").Some?
    ensures var name := Prop(raw, "name").value;
            !(name.JStr? && name.s != []) ==> CheckItem(index, raw) == Failure(BadItem(index, Name))
    ensures var name := Prop(raw, "name").value;
            name.JStr? && name.s != [] && !NumericAndTruthy(Prop(raw, "price").value) ==>
              CheckItem(index, raw) == Failure(BadItem(index, Price))
    ensures var name := Prop(raw, "name").value;
            name.JStr? && name.s != [] && NumericAndTruthy(Prop(raw, "price").value)
            && !NumericAndTruthy(Prop(raw, "quantity").value) ==>
              CheckItem(index, raw) == Failure(BadItem(index, Quantity))
  {
  }

  /** `items.map(...)` with the item check: every item checked in index order, the
      first exception aborting the whole map. */
  function CheckItems(raws: seq<Json>): (r: Result<seq<Draft>, PlaceError>)
    ensures r.Success? ==>
              |r.value| == |raws|
              && forall i :: 0 <= i < |raws| ==> CheckItem(i, raws[i]) == Success(r.value[i])
    ensures r.Failure? ==> exists k :: FailsFirstAt(raws, CheckItem, k, r.error)
  {
    MapResults(raws, CheckItem)
  }

  /** What `Order.create` accepts: every trimmed name non-empty (`required`) and every
      quantity a number of at least 1 (`min: 1`). */
  predicate Storable(drafts: seq<Draft>)
    ensures Storable(drafts) <==>
              forall i :: 0 <= i < |drafts| ==>
                drafts[i].quantity.Some?
                && ValidItem(OrderItem(drafts[i].name, drafts[i].price, drafts[i].quantity.value))
  {
    forall i :: 0 <= i < |drafts| ==>
      drafts[i].name != "" && drafts[i].quantity.Some? && drafts[i].quantity.value >= 1
  }

  function ToItems(drafts: seq<Draft>): (items: seq<OrderItem>)
    requires Storable(drafts)
    ensures |items| == |drafts|
    ensures forall i :: 0 <= i < |items| ==> ValidItem(items[i])
    ensures forall i :: 0 <= i < |items| ==>
              items[i] == OrderItem(drafts[i].name, drafts[i].price, drafts[i].quantity.value)
  {
    seq(|drafts|, i requires 0 <= i < |drafts| =>
      OrderItem(drafts[i].name, drafts[i].price, drafts[i].quantity.value))
  }

  /** The 201 answer: the new order's id, the server-side total and the creation time. */
  datatype Receipt = Receipt(orderId: nat, total: int, createdAt: int)

  datatype Placement = Placement(store: Store, response: Result<Receipt, PlaceError>)

  /** POST / : place an order for `caller` from the request body at time `now`. */
  function Place(st: Store, caller: UserId, body: Json, now: int): (p: Placement)
    ensures p.response.Failure? ==> p.store == st
    ensures Prop(body, "items").None? ==> p.response == Failure(ServerError)
    ensures Prop(body, "items").Some? ==>
              var items := Prop(body, "items").value;
              (p.response == Failure(NoItems) <==> !items.JArray? || items.elems == [])
    ensures p.response.Success? ==>
              |p.store.orders| == |st.orders| + 1 &&
              var o := p.store.orders[|st.orders|];
              && p.store.orders == st.orders + [o]
              && o.id == |st.orders| == p.response.value.orderId
              && o.user == caller
              && o.status == Placed
              && o.total == Total(o.items) == p.response.value.total
              && o.createdAt == now == o.updatedAt == p.response.value.createdAt
              && ValidOrder(o)
              && var raws := Prop(body, "items").value.elems;
                 |o.items| == |raws| > 0
                 && CheckItems(raws).Success?
                 && forall i :: 0 <= i < |raws| ==>
                      CheckItems(raws).value[i]
                        == Draft(o.items[i].name, o.items[i].price, Some(o.items[i].quantity))
    ensures WellFormed(st) ==> WellFormed(p.store)
  {
    match Prop(body, "items")
    case None => Placement(st, Failure(ServerError))
    case Some(items) =>
      if !items.JArray? || items.elems == [] then Placement(st, Failure(NoItems))
      else
        match CheckItems(items.elems)
        case Failure(e) => Placement(st, Failure(e))
        case Success(drafts) =>
          if !Storable(drafts) then Placement(st, Failure(ServerError))
          else Record(st, caller, drafts, now)
  }

  /** `Order.create` for checked and storable drafts: a new `placed` order owned by
      the caller whose total is computed from the stored items. */
  function Record(st: Store, caller: UserId, drafts: seq<Draft>, now: int): (p: Placement)
    requires Storable(drafts)
    ensures |p.store.orders| == |st.orders| + 1
    ensures p.response.Success?
    ensures var o := p.store.orders[|st.orders|];
            && p.store.orders == st.orders + [o]
            && o.id == |st.orders| == p.response.value.orderId
            && o.user == caller
            && o.status == Placed
            && o.total == Total(o.items) == p.response.value.total
            && o.createdAt == now == o.updatedAt == p.response.value.createdAt
            && ValidOrder(o)
            && |o.items| == |drafts|
            && forall i :: 0 <= i < |drafts| ==>
                 drafts[i] == Draft(o.items[i].name, o.items[i].price, Some(o.items[i].quantity))
    ensures WellFormed(st) ==> WellFormed(p.store)
  {
    var orderItems := ToItems(drafts);
    var total := Total(orderItems);
    var o := Order(|st.orders|, caller, orderItems, total, Placed, now, now);
    Placement(Store(st.orders + [o]), Success(Receipt(o.id, total, now)))
  }

  /** Placement succeeds whenever every item passes its check and the store accepts
      the sanitised items. */
  lemma PlaceAcceptsCheckedItems(st: Store, caller: UserId, body: Json, now: int, drafts: seq<Draft>)
    requires Prop(body, "items").Some? && Prop(body, "items").value.JArray?
    requires Prop(body, "items").value.elems != []
    requires CheckItems(Prop(body, "items").value.elems) == Success(drafts) && Storable(drafts)
    ensures Place(st, caller, body, now) == Record(st, caller, drafts, now)
  {
  }

  /** Only `items` is read from the body: a client-sent `total`, or any other field,
      changes nothing. */
  lemma PlaceReadsOnlyItems(st: Store, caller: UserId, body1: Json, body2: Json, now: int)
    requires Prop(body1, "items") == Prop(body2, "items")
    ensures Place(st, caller, body1, now) == Place(st, caller, body2, now)
  {
  }

  /** A rejected item aborts placement with the error of the first failing item, and
      nothing is stored. The answer is 400 when that error is a bad item (its message
      holds "Item") and 500 when the check itself threw. */
  lemma PlaceReportsFirstFailure(st: Store, caller: UserId, body: Json, now: int, k: nat, e: PlaceError)
    requires Prop(body, "items").Some? && Prop(body, "items").value.JArray?
    requires FailsFirstAt(Prop(body, "items").value.elems, CheckItem, k, e)
    ensures Place(st, caller, body, now) == Placement(st, Failure(e))
    ensures PlaceErrorStatus(e) == if e.BadItem? then 400 else 500
  {
    MapResultsFirstFailure(Prop(body, "items").value.elems, CheckItem, k, e);
  }

  /** `items: [null]`: reading `name` of `null` throws a `TypeError` whose message has
      no "Item", so the route answers 500 and stores nothing. */
  lemma NullItemIsServerError(st: Store, caller: UserId, body: Json, now: int)
    requires Prop(body, "items") == Some(JArray([JNull]))
    ensures Place(st, caller, body, now) == Placement(st, Failure(ServerError))
    ensures PlaceErrorStatus(Place(st, caller, body, now).response.error) == 500
  {
    PlaceReportsFirstFailure(st, caller, body, now, 0, ServerError);
  }

  /** Items that pass every check are refused by the store exactly when some item's
      name is blank once trimmed, or `parseInt` finds no number in its quantity. */
  lemma StoreRefusal(raws: seq<Json>)
    requires CheckItems(raws).Success?
    ensures !Storable(CheckItems(raws).value) <==>
              exists i :: 0 <= i < |raws| && Refused(raws[i])
  {
    var drafts := CheckItems(raws).value;
    forall i | 0 <= i < |raws|
      ensures (drafts[i].name != "" && drafts[i].quantity.Some? && drafts[i].quantity.value >= 1)
                <==> !Refused(raws[i])
    {
      assert CheckItem(i, raws[i]) == Success(drafts[i]);
    }
  }

  /** An item the checks let through that `Order.create` refuses. */
  predicate Refused(raw: Json) {
    && Prop(raw, "name").Some? && Prop(raw, "name").value.JStr?
    && (Trim(Prop(raw, "name").value.s) == [] || ParseInt(Prop(raw, "quantity").value).None?)
  }

  /** The store's refusal is not reported as a bad item: an order whose items all pass
      the checks but one of which has a blank trimmed name or an unreadable quantity
      is answered with 500 and stores nothing. */
  lemma PlaceRefusedByStore(st: Store, caller: UserId, body: Json, now: int, k: nat)
    requires Prop(body, "items").Some? && Prop(body, "items").value.JArray?
    requires CheckItems(Prop(body, "items").value.elems).Success?
    requires k < |Prop(body, "items").value.elems| && Refused(Prop(body, "items").value.elems[k])
    ensures Place(st, caller, body, now) == Placement(st, Failure(ServerError))
  {
    StoreRefusal(Prop(body, "items").value.elems);
  }

  /** A request item `{name, price, quantity}` with numeric price and quantity. */
  predicate IsItem(raw: Json, name: string, price: int, quantity: int) {
    && raw.JObject?
    && Prop(raw, "name") == Some(JStr(name))
    && Prop(raw, "price") == Some(JNum(price))
    && Prop(raw, "quantity") == Some(JNum(quantity))
  }

  /** An item with a non-empty name and non-zero numbers passes with its trimmed
      name and its price, and a quantity raised to at least 1: a negative price is
      kept and a negative quantity becomes 1. */
  lemma NumericItemAccepted(index: nat, raw: Json, name: string, price: int, quantity: int)
    requires IsItem(raw, name, price, quantity) && name != "" && price != 0 && quantity != 0
    ensures CheckItem(index, raw)
              == Success(Draft(Trim(name), price, Some(if quantity < 1 then 1 else quantity)))
  {
    assert Truthy(JStr(name));
    assert NumericAndTruthy(JNum(price)) && NumericAndTruthy(JNum(quantity));
  }

  /** Price 0 and quantity 0 are falsy, so the truthiness tests reject them rather
      than raising them. */
  lemma ZeroRejected(index: nat, raw: Json, name: string, price: int, quantity: int)
    requires IsItem(raw, name, price, quantity) && name != ""
    ensures price == 0 ==> CheckItem(index, raw) == Failure(BadItem(index, Price))
    ensures price != 0 && quantity == 0 ==> CheckItem(index, raw) == Failure(BadItem(index, Quantity))
  {
  }

  /** For a number, or a numeric non-blank string, the stored quantity is
      `max(1, Number(q))`: `parseInt` and `Number` agree on such values. */
  lemma SanitisedQuantity(index: nat, raw: Json)
    requires CheckItem(index, raw).Success?
    requires var q := Prop(raw, "quantity").value;
             q.JNum? || (q.JStr? && Trim(q.s) != [])
    ensures var q := ToNumber(Prop(raw, "quantity").value).value;
            CheckItem(index, raw).value.quantity == Some(if q < 1 then 1 else q)
  {
    var q := Prop(raw, "quantity").value;
    if q.JStr? {
      ParseIntAgreesWithNumber(q.s);
    }
  }

  // ---------------------------------------------------------------------------
  // Listing (GET /me)

  function CreatedAt(o: Order): int { o.createdAt }

  /** GET /me : the caller's orders, newest first. */
  function ListMine(st: Store, caller: UserId): (r: seq<Order>)
    ensures forall i :: 0 <= i < |r| ==> r[i].user == caller
    ensures Recency.NewestFirst(r, CreatedAt)
    ensures forall o :: multiset(r)[o] == if o.user == caller then multiset(st.orders)[o] else 0
  {
    var owned := Recency.Filter(st.orders, (o: Order) => o.user == caller);
    var r := Recency.SortNewestFirst(owned, CreatedAt);
    assert forall i :: 0 <= i < |r| ==> r[i] in multiset(owned);
    r
  }

  /** An order is listed for `caller` exactly when it is stored and `caller` owns it. */
  lemma ListMineExactlyOwned(st: Store, caller: UserId, o: Order)
    ensures o in ListMine(st, caller) <==> o in st.orders && o.user == caller
  {
    var r := ListMine(st, caller);
    assert o in r <==> multiset(r)[o] > 0;
    assert o in st.orders <==> multiset(st.orders)[o] > 0;
  }

  // ---------------------------------------------------------------------------
  // Cancellation (PATCH /:id/cancel)

  datatype CancelError = NotFound | Forbidden | NotCancellable | WindowExceeded

  function CancelErrorStatus(e: CancelError): int {
    match e
    case NotFound => 404
    case Forbidden => 403
    case NotCancellable => 400
    case WindowExceeded => 400
  }

  /** `findById`: the position of the order with this id, if any. */
  function FindById(orders: seq<Order>, id: nat): (r: Option<nat>)
    ensures r.Some? ==> r.value < |orders| && orders[r.value].id == id
                        && forall j :: 0 <= j < r.value ==> orders[j].id != id
    ensures r.None? <==> forall j :: 0 <= j < |orders| ==> orders[j].id != id
  {
    Seqs.FirstIndex(orders, (o: Order) => o.id == id)
  }

  /** In a well-formed store the order with id `id` sits at position `id`. */
  lemma FindByIdWellFormed(st: Store, id: nat)
    requires WellFormed(st)
    ensures FindById(st.orders, id) == if id < |st.orders| then Some(id) else None
  {
    if id < |st.orders| {
      assert st.orders[id].id == id;
    }
  }

  datatype Cancellation = Cancellation(store: Store, response: Result<Order, CancelError>)

  /** PATCH /:id/cancel : the guards run in a fixed order (missing, other owner,
      status, window) and only an order passing all four becomes `cancelled`.
      Saving refreshes `updatedAt`. */
  function Cancel(st: Store, caller: UserId, id: nat, now: int): (c: Cancellation)
    ensures c.response.Failure? ==> c.store == st
    ensures FindById(st.orders, id).None? <==> c.response == Failure(NotFound)
    ensures FindById(st.orders, id).Some? ==>
              var k := FindById(st.orders, id).value;
              var o := st.orders[k];
              && (o.user != caller ==> c.response == Failure(Forbidden))
              && (o.user == caller && o.status != Placed ==> c.response == Failure(NotCancellable))
              && ((o.user == caller && o.status == Placed && now - o.createdAt > CancelWindowMs)
                  ==> c.response == Failure(WindowExceeded))
              && (c.response.Success? <==>
                    o.user == caller && o.status == Placed && now - o.createdAt <= CancelWindowMs)
              && (c.response.Success? ==>
                    && c.response.value == o.(status := Cancelled, updatedAt := now)
                    && |c.store.orders| == |st.orders|
                    && c.store.orders[k] == c.response.value
                    && forall j :: 0 <= j < |st.orders| && j != k ==> c.store.orders[j] == st.orders[j])
    ensures WellFormed(st) ==> WellFormed(c.store)
  {
    match FindById(st.orders, id)
    case None => Cancellation(st, Failure(NotFound))
    case Some(k) =>
      var o := st.orders[k];
      if o.user != caller then Cancellation(st, Failure(Forbidden))
      else if o.status != Placed then Cancellation(st, Failure(NotCancellable))
      else if now - o.createdAt > CancelWindowMs then Cancellation(st, Failure(WindowExceeded))
      else
        var cancelled := o.(status := Cancelled, updatedAt := now);
        Cancellation(Store(st.orders[k := cancelled]), Success(cancelled))
  }

  /** Once cancelled, an order can never be cancelled again, at any later time. */
  lemma {:induction false} CancelOnlyOnce(st: Store, caller: UserId, id: nat, now: int, later: int)
    requires Cancel(st, caller, id, now).response.Success?
    ensures Cancel(Cancel(st, caller, id, now).store, caller, id, later).response
              == Failure(NotCancellable)
    ensures CancelErrorStatus(Cancel(Cancel(st, caller, id, now).store, caller, id, later).response.error)
              == 400
  {
    var k := FindById(st.orders, id).value;
    var st' := Cancel(st, caller, id, now).store;
    assert forall j :: 0 <= j < k ==> st'.orders[j].id == st.orders[j].id;
    assert st'.orders[k].id == id;
    assert FindById(st'.orders, id) == Some(k);
  }

  /** The window is closed: cancelling exactly two minutes after creation is still
      allowed, one millisecond later it is not. */
  lemma CancelWindowBoundary(st: Store, caller: UserId, id: nat)
    requires WellFormed(st) && id < |st.orders|
    requires st.orders[id].user == caller && st.orders[id].status == Placed
    ensures Cancel(st, caller, id, st.orders[id].createdAt + 120000).response.Success?
    ensures Cancel(st, caller, id, st.orders[id].createdAt + 120001).response == Failure(WindowExceeded)
    ensures CancelErrorStatus(Cancel(st, caller, id, st.orders[id].createdAt + 120001).response.error) == 400
  {
    FindByIdWellFormed(st, id);
  }

  /** The walk-through of a single order: 2 pizzas at 299 cost 598; cancelling within
      the window succeeds and a second cancel is refused. Any name that is not blank
      plays the part of "Pizza". */
  lemma PizzaScenario(caller: UserId, now: int, body: Json, raw: Json, name: string)
    requires Prop(body, "items") == Some(JArray([raw])) && IsItem(raw, name, 299, 2)
    requires Trim(name) != ""
    ensures var p := Place(Store([]), caller, body, now);
            && p.response == Success(Receipt(0, 598, now))
            && Cancel(p.store, caller, 0, now + 60000).response.Success?
            && Cancel(Cancel(p.store, caller, 0, now + 60000).store, caller, 0, now + 90000).response
                 == Failure(NotCancellable)
  {
    var p := Place(Store([]), caller, body, now);
    PizzaPlaced(caller, now, body, raw, name);
    FindByIdWellFormed(p.store, 0);
    CancelOnlyOnce(p.store, caller, 0, now + 60000, now + 90000);
  }

  /** A one-item order is charged that item's price times its sanitised quantity. */
  lemma PlaceSingleItem(st: Store, caller: UserId, body: Json, now: int, raw: Json, d: Draft)
    requires Prop(body, "items") == Some(JArray([raw]))
    requires CheckItems([raw]) == Success([d]) && d.name != "" && d.quantity.Some?
    ensures Place(st, caller, body, now).response
              == Success(Receipt(|st.orders|, d.price * d.quantity.value, now))
  {
    PlaceAcceptsCheckedItems(st, caller, body, now, [d]);
    RecordOne(st, caller, d, now);
  }

  /** Recording one storable item charges its price times its quantity. */
  lemma RecordOne(st: Store, caller: UserId, d: Draft, now: int)
    requires d.name != "" && d.quantity.Some? && d.quantity.value >= 1
    ensures Record(st, caller, [d], now).response
              == Success(Receipt(|st.orders|, d.price * d.quantity.value, now))
  {
    var o := Record(st, caller, [d], now).store.orders[|st.orders|];
    assert o.items == [OrderItem(d.name, d.price, d.quantity.value)];
    TotalOfOne(o.items[0]);
  }

  lemma TotalOfOne(it: OrderItem)
    ensures Total([it]) == it.price * it.quantity
  {
    assert [it][..0] == [];
  }

  lemma PizzaPlaced(caller: UserId, now: int, body: Json, raw: Json, name: string)
    requires Prop(body, "items") == Some(JArray([raw])) && IsItem(raw, name, 299, 2)
    requires Trim(name) != ""
    ensures Place(Store([]), caller, body, now).response == Success(Receipt(0, 598, now))
  {
    NumericItemAccepted(0, raw, name, 299, 2);
    MapResultsAllPass([raw], [Draft(Trim(name), 299, Some(2))], CheckItem);
    PlaceSingleItem(Store([]), caller, body, now, raw, Draft(Trim(name), 299, Some(2)));
  }
}

=== FILE: recency.dfy ===
/** The two query steps both listings share: keep the records a filter selects, and
    order them newest first by a creation timestamp (`sort({ createdAt: -1 })`). */
module Recency {

  /** Every record is at least as recent as every record after it. */
  ghost predicate NewestFirst<T>(s: seq<T>, createdAt: T -> int) {
    forall i, j :: 0 <= i < j < |s| ==> createdAt(s[i]) >= createdAt(s[j])
  }

  /** The records of `s` that satisfy `keep`, in their original order. */
  function Filter<T(!new)>(s: seq<T>, keep: T -> bool): (r: seq<T>)
    ensures forall i :: 0 <= i < |r| ==> keep(r[i])
    ensures forall x :: multiset(r)[x] == if keep(x) then multiset(s)[x] else 0
  {
    if s == [] then []
    else
      var tail := Filter(s[1..], keep);
      assert s == [s[0]] + s[1..];
      if keep(s[0]) then [s[0]] + tail else tail
  }

  /** Places `x` in front of the first record that is not more recent than it. */
  function Insert<T>(x: T, s: seq<T>, createdAt: T -> int): (r: seq<T>)
    requires NewestFirst(s, createdAt)
    ensures NewestFirst(r, createdAt)
    ensures multiset(r) == multiset(s) + multiset{x}
    ensures |r| == |s| + 1
  {
    if s == [] || createdAt(x) >= createdAt(s[0]) then
      Prepend(x, s, createdAt);
      [x] + s
    else
      var tail := Insert(x, s[1..], createdAt);
      assert s == [s[0]] + s[1..];
      HeadBound(s, x, tail, createdAt);
      Prepend(s[0], tail, createdAt);
      [s[0]] + tail
  }

  /** A record at least as recent as the head of a newest-first list may go in front. */
  lemma Prepend<T>(y: T, s: seq<T>, createdAt: T -> int)
    requires NewestFirst(s, createdAt)
    requires s != [] ==> createdAt(y) >= createdAt(s[0])
    ensures NewestFirst([y] + s, createdAt)
  {
    var r := [y] + s;
    forall i, j | 0 <= i < j < |r| ensures createdAt(r[i]) >= createdAt(r[j]) {
      assert r[j] == s[j - 1];
      if i > 0 {
        assert r[i] == s[i - 1];
      }
    }
  }

  /** The head of a rearrangement of `s[1..]` plus a less recent `x` is no more recent
      than `s[0]`. */
  lemma HeadBound<T>(s: seq<T>, x: T, tail: seq<T>, createdAt: T -> int)
    requires NewestFirst(s, createdAt) && s != [] && createdAt(x) < createdAt(s[0])
    requires tail != [] && multiset(tail) == multiset(s[1..]) + multiset{x}
    ensures createdAt(s[0]) >= createdAt(tail[0])
  {
    assert tail[0] in multiset(tail);
    if tail[0] != x {
      assert tail[0] in multiset(s[1..]);
      var j :| 0 <= j < |s[1..]| && s[1..][j] == tail[0];
      assert s[j + 1] == tail[0];
    }
  }

  /** A stable insertion sort on descending `createdAt`. */
  function SortNewestFirst<T>(s: seq<T>, createdAt: T -> int): (r: seq<T>)
    ensures NewestFirst(r, createdAt)
    ensures multiset(r) == multiset(s)
  {
    if s == [] then []
    else
      assert s == [s[0]] + s[1..];
      Insert(s[0], SortNewestFirst(s[1..], createdAt), createdAt)
  }
}

=== FILE: seqs.dfy ===
/** Searching a sequence, shared by the cart merge and the order lookup. */
module Seqs {
  import opened Wrappers

  /** `findIndex`: the position of the first element satisfying `p`, if any. */
  function FirstIndex<T>(s: seq<T>, p: T -> bool): (r: Option<nat>)
    ensures r.Some? ==> r.value < |s| && p(s[r.value]) && forall j :: 0 <= j < r.value ==> !p(s[j])
    ensures r.None? <==> forall j :: 0 <= j < |s| ==> !p(s[j])
  {
    if s == [] then None
    else if p(s[0]) then Some(0)
    else match FirstIndex(s[1..], p)
      case None => None
      case Some(k) => Some(k + 1)
  }
}

=== FILE: wrappers.dfy ===
/** Optional values and results shared by every module of the model. */
module Wrappers {

  /** An optional value; `None` stands for JavaScript's `null`, `undefined` or `NaN`
      depending on the context in which it is used. */
  datatype Option<+T> = None | Some(value: T) {
    function GetOr(default: T): T {
      match this
      case Some(v) => v
      case None => default
    }
  }

  /** Either a value or the error that stopped its computation. */
  datatype Result<+R, +E> = Success(value: R) | Failure(error: E)

  /** Element `k` is where `MapResults` stops: the first element `f` fails on. */
  ghost predicate FailsFirstAt<X, Y, E>(xs: seq<X>, f: (nat, X) -> Result<Y, E>, k: nat, e: E) {
    && k < |xs|
    && f(k, xs[k]) == Failure(e)
    && forall i :: 0 <= i < k ==> f(i, xs[i]).Success?
  }

  /** `xs.map((x, i) => f(i, x))` for an `f` that may throw: the elements are visited
      in index order and the first failure aborts the whole map. */
  function MapResults<X, Y(==), E(==)>(xs: seq<X>, f: (nat, X) -> Result<Y, E>): (r: Result<seq<Y>, E>)
    ensures r.Success? ==>
              |r.value| == |xs| && forall i :: 0 <= i < |xs| ==> f(i, xs[i]) == Success(r.value[i])
    ensures r.Failure? ==> exists k :: FailsFirstAt(xs, f, k, r.error)
  {
    if xs == [] then Success([])
    else
      var n := |xs| - 1;
      var prefix := xs[..n];
      assert forall i :: 0 <= i < n ==> prefix[i] == xs[i];
      match MapResults(prefix, f)
      case Failure(e) =>
        assert exists k :: FailsFirstAt(xs, f, k, e) by {
          var k :| FailsFirstAt(prefix, f, k, e);
          assert FailsFirstAt(xs, f, k, e);
        }
        Failure(e)
      case Success(ys) =>
        match f(n, xs[n])
        case Failure(e) =>
          assert FailsFirstAt(xs, f, n, e);
          Failure(e)
        case Success(y) =>
          var all := ys + [y];
          assert forall i :: 0 <= i < n ==> all[i] == ys[i];
          Success(all)
  }

  /** When `f` succeeds on every element, the map succeeds with exactly those results. */
  lemma {:induction false} MapResultsAllPass<X, Y, E>(xs: seq<X>, ys: seq<Y>, f: (nat, X) -> Result<Y, E>)
    requires |ys| == |xs|
    requires forall i :: 0 <= i < |xs| ==> f(i, xs[i]) == Success(ys[i])
    ensures MapResults(xs, f) == Success(ys)
  {
    if xs != [] {
      var n := |xs| - 1;
      var prefix, done := xs[..n], ys[..n];
      assert forall i :: 0 <= i < n ==> prefix[i] == xs[i] && done[i] == ys[i];
      MapResultsAllPass(prefix, done, f);
      assert f(n, xs[n]) == Success(ys[n]);
      assert ys == done + [ys[n]];
    }
  }

  /** When some element fails, the map fails with the error of the first failing one. */
  lemma MapResultsFirstFailure<X, Y, E>(xs: seq<X>, f: (nat, X) -> Result<Y, E>, k: nat, e: E)
    requires FailsFirstAt(xs, f, k, e)
    ensures MapResults(xs, f) == Failure(e)
  {
  }
}
